=== FILE: README.md ===
# Cap-table event forms, breadcrumb, AI context and dashboard folds in Dafny

This project models the client-side rules of a cap-table management web application. The application lets a business record corporate events, and its forms decide whether an event may be sent to the server:

- **Raise a round** (`raise-a-round.tsx`) is posted only when the share balance is exactly zero. The balance is the business's balance shares, minus the shares given to investors and under plain contracts, plus the shares taken from diluted holders. The form also previews the post-money valuation.
- **Grant exit** (`grant-exit.tsx`) is posted only when the shares freed by exiting holders, together with the balance, are exactly re-issued.
- **Issue contract** (`issue-contract.tsx`) is posted when the issued shares do not exceed the balance plus the diluted shares. The shares input also carries a `max` of the chosen contract's shares, which the browser enforces before the form's own code runs. The form shows the contract's price per share.
- **Create event** (`create-event.tsx`) only validates that shares given out equal shares diluted. It then shows a toast.
- **Allocate shares** (`allocate-shares.tsx`) either creates new shares or splits every share. It previews the figures after the event and dispatches them as a batch of context entries to the `aiContext` slice.

Around the forms the project also models:

- The breadcrumb above every business page (`navigator.tsx`).
- The Redux slice meant to hold the AI assistant's context entries (`aiContext.ts`). It is a class whose methods update the map in place.
- The display helpers `formatEnum` and `formatDate` (`utils.ts`).
- The system-prompt builder written for the assistant (`messageTemplates.ts`).
- The two dashboard folds: shares grouped by holder type (`shareholderChart.tsx`), and the rounds sorted by date on an array copy (`roundHistory.tsx`).

Each form's submit is a function from the form values to an `Outcome`, which has four cases:

- `Blocked`: the browser's constraint validation of an input (such as a `max` attribute) stops the submit event, so none of the form's code runs.
- `Invalid`: the schema rejects the form.
- `Refused(toast)`: the submit handler shows an error and sends nothing.
- `Posted(endpoint, body)`: the mutation is sent.

A number that JavaScript would compute as `NaN` or `Infinity` is `None` in the model. Counts of shares are integers; valuations, amounts, prices and ratios are exact reals. The clock and the formatting of values into sentences are parameters.

Modules:

- `Wrappers`, `Folds`, `Strings` and `Lookup` hold the shared vocabulary: `Option`, sums over sequences, JavaScript's `split`/`join`/case mapping/`includes`, and "last entry with this key".
- `Ledger` holds what the forms share: the business snapshot, stakeholders, dilution rows, the round types and the outcome type.
- There is one module per core file.

## Model

| member | source | states |
|---|---|---|
| RaiseARound.Submit | src/components/events/raise-a-round.tsx:145-167 | The form is posted, to `/api/business/<id>/events/raise-a-round` with the form as body, exactly when the schema accepts it, every counted contract has a share count and the balance is 0. A valid form whose balance is undefined or non-zero is refused with "Non-zero Share Balance!". |
| RaiseARound.SubmitMatchesPreview | src/components/events/raise-a-round.tsx:148-157 | The submit-time balance equals the preview balance when every untyped or NONE contract has a share count; otherwise it is NaN (`None`). |
| RaiseARound.ContractSharesDefined | src/components/events/raise-a-round.tsx:150-155 | The submit-time sum of counted contract shares is defined exactly when every counted contract has a share count, and then equals the sum with missing counts read as 0. |
| RaiseARound.UncountedContractIgnored | src/components/events/raise-a-round.tsx:153 | Adding a SAFE, convertible-note, warrant or option contract to an investment changes neither the preview nor the submit balance. |
| RaiseARound.BalanceIgnoresOrder | src/components/events/raise-a-round.tsx:148-157 | Both balances are independent of the order of investments and dilutions. |
| RaiseARound.AddDilution | src/components/events/raise-a-round.tsx:148-157 | Adding a dilution row raises the preview balance by exactly its shares. It raises the submit-time balance by the same amount when that balance is defined, and leaves it undefined (NaN) when it is not. |
| RaiseARound.AddInvestment | src/components/events/raise-a-round.tsx:148-157 | Adding an investment without contracts lowers the preview balance by exactly its shares. It lowers the submit-time balance by the same amount when that balance is defined, and leaves it undefined (NaN) when it is not. |
| RaiseARound.ReplaceRowKeepsBalance | src/components/events/raise-a-round.tsx:316-331 | Replacing an investment row by one with the same shares and the same counted contract shares leaves both balances unchanged. |
| RaiseARound.PostMoneyDefined | src/components/events/raise-a-round.tsx:297-315 | The post-money valuation is defined exactly when every investment has an amount. It then equals pre-money plus the sum of amounts plus the sum of contract values. A plain contract is worth shares × price; any other contract is worth its invested amount; a missing field counts as 0. |
| RaiseARound.PostMoneyAtLeastPreMoney | src/components/events/raise-a-round.tsx:849 | For a form the schema accepts, when the post-money valuation is defined, it is at least the pre-money valuation. |
| RaiseARound.PostMoneyIgnoresOrder | src/components/events/raise-a-round.tsx:297-315 | The post-money valuation does not depend on the order of investments. |
| RaiseARound.AddContractValue | src/components/events/raise-a-round.tsx:304-312 | Adding a contract to an investment raises the post-money valuation by exactly that contract's value. |
| RaiseARound.InvestorCandidates | src/components/events/raise-a-round.tsx:403-411 | The investor picker of row `index` offers exactly the stakeholders not chosen in another investment row. |
| RaiseARound.DilutionCandidates | src/components/events/raise-a-round.tsx:783-793 | The dilution picker of row `index` offers exactly the stakeholders holding shares (`ownershipShares > 0`) who are not chosen in another dilution row. |
| RaiseARound.FindByIdIsFirst | src/components/events/raise-a-round.tsx:767 | `stakeholders.find` by id gives nothing exactly when no stakeholder has the id, and otherwise the first one that has it. |
| RaiseARound.PickDilutionHolder | src/components/events/raise-a-round.tsx:764-768 | Picking a holder in a dilution row sets that row's id. It pre-fills the row's shares with the first matching stakeholder's `ownershipShares`, or 0 when the id is unknown. Every other row and field is unchanged. |
| GrantExit.StakeholderMap | src/components/events/grant-exit.tsx:129-132 | The map has a key exactly for each stakeholder id in the list, and maps it to the last stakeholder with that id. |
| GrantExit.Submit | src/components/events/grant-exit.tsx:134-147 | The exit is posted, to `.../events/grant-exit`, exactly when the schema accepts it and the issued shares equal the balance plus the total shares of the exiting holders (0 for an unknown id). A valid form with a non-zero balance is refused with "Non-zero Share Balance!". |
| GrantExit.BalanceIgnoresOrder | src/components/events/grant-exit.tsx:135-138 | The balance does not depend on the order of exits or issues. |
| GrantExit.AddExit | src/components/events/grant-exit.tsx:135-138 | Adding an exit raises the balance by the exiting holder's total shares, or leaves it unchanged for an unknown holder. |
| GrantExit.AddIssue | src/components/events/grant-exit.tsx:135-138 | Adding an issue row lowers the balance by exactly its shares. |
| GrantExit.ReissueInFullAccepted | src/components/events/grant-exit.tsx:134-147 | With a zero prior balance, one exit whose shares are issued in full to one holder is posted. |
| GrantExit.ExitCandidates | src/components/events/grant-exit.tsx:294-302 | The exit picker offers exactly the stakeholders not chosen in another exit row. |
| GrantExit.IssueCandidates | src/components/events/grant-exit.tsx:426-439 | The issue picker offers exactly the stakeholders holding shares who neither exit nor are chosen in another issue row. |
| IssueContract.Submit | src/components/events/issue-contract.tsx:122-135 | The submit is blocked by the browser exactly when the issued shares exceed the `max` of the shares input (lines 275-279: the chosen contract's shares, 0 for none). Otherwise the contract issue is posted, to `.../events/issue-contract`, exactly when the schema accepts it and the issued shares do not exceed the balance plus the diluted shares, so a balance of exactly 0 is accepted; a valid form with a negative balance is refused with "Shares allocated exceed available shares!". A posted form names a listed contract and issues between 1 and that contract's shares. |
| IssueContract.FewerSharesStillAccepted | src/components/events/issue-contract.tsx:123-134 | If a form is posted, the same form with fewer issued shares (at least 1) is posted too, neither blocked nor refused. |
| IssueContract.AddDilution | src/components/events/issue-contract.tsx:123-126 | Adding a dilution row raises the balance by exactly its shares. |
| IssueContract.BalanceIgnoresOrder | src/components/events/issue-contract.tsx:123-126 | The balance does not depend on the order of dilutions. |
| IssueContract.ContractMap | src/components/events/issue-contract.tsx:137-140 | The map has a key exactly for each contract id, and maps it to the last contract with that id. |
| IssueContract.EventType | src/components/events/issue-contract.tsx:246-249 | The "Event Type" shown is the chosen contract's type, or NONE when no listed contract is chosen. |
| IssueContract.PricePerShare | src/components/events/issue-contract.tsx:257-261 | For a contract linked to a warrants-and-options record (`warrantOptionsId` set) the price is its own price per share, or 0. Otherwise the price is post-money ÷ total shares: undefined exactly when the total is 0, and otherwise a value that, times the total, gives the post-money valuation. |
| IssueContract.DilutionCandidates | src/components/events/issue-contract.tsx:369-379 | The dilution picker offers exactly the stakeholders with stakes who are not chosen in another row. |
| CreateEvent.Submit | src/components/events/create-event.tsx:112-116 | Saving succeeds, with the toast "Investment round saved successfully!" and nothing sent, exactly when the schema accepts the form. |
| CreateEvent.DefaultFormNeedsOnlyNames | src/components/events/create-event.tsx:84-111 | The default form is rejected. Filling in the round, investor and dilution names is enough to make it acceptable. |
| CreateEvent.SharesMatchIgnoresOrder | src/components/events/create-event.tsx:59-64 | Whether investment and dilution shares match does not depend on row order. |
| CreateEvent.AddPair | src/components/events/create-event.tsx:59-64 | Starting from matching shares, adding an investor and a dilution keeps them matching exactly when the two rows carry equal shares. |
| AllocateShares.DefaultSplitRejectedAsWritten | src/components/events/allocate-shares.tsx:30-37 | As written, a stock split started from the default form is rejected, whatever name, valuation and ratio are entered. The hidden `addedShares` keeps its default 0, which fails `positive()`. |
| AllocateShares.ValidFormIntended | src/components/events/allocate-shares.tsx:30-37 | With the corrected schema, when the business's post-money valuation is non-negative, that stock split with a name and a positive ratio is accepted; the untouched default is still rejected. Every form the written schema accepts is also accepted by the corrected one. |
| AllocateShares.Submit | src/components/events/allocate-shares.tsx:121-124 | As written, the allocation is posted, to `.../events/allocate-shares` with the form as body, exactly when the schema as written (lines 30-37) accepts it. It is never refused or blocked. |
| AllocateShares.SubmitIntended | src/components/events/allocate-shares.tsx:121-124 | With the corrected schema, the allocation is posted exactly when that schema accepts it, to the same endpoint with the form as body. It is never refused or blocked. |
| AllocateShares.SubmitsDiffer | src/components/events/allocate-shares.tsx:30-37 | When the business's post-money valuation is non-negative, a named stock split with a positive ratio, started from the default form, is posted by the corrected submit and not by the one as written. The two agree on every form whose share fields are both positive or absent. |
| AllocateShares.RatioOfFraction | src/components/events/allocate-shares.tsx:421-424 | An option written "a/b" with b > 0 has the value a/b. |
| AllocateShares.RatioChoiceValues | src/components/events/allocate-shares.tsx:421-424 | The options "1/2", "1/4" and "1/10" have the values 0.5, 0.25 and 0.1. |
| AllocateShares.DefaultRatioNotAChoice | src/components/events/allocate-shares.tsx:416-424 | As written, the default split ratio 1 is none of the ratios the select offers, although the select shows "1/2". |
| AllocateShares.DefaultForm | src/components/events/allocate-shares.tsx:126-137 | The corrected default form starts with the ratio of the first option (the one the select shows). When the business's post-money valuation is non-negative, a stock split with a name is then accepted. |
| AllocateShares.NewSharesPreviewFacts | src/components/events/allocate-shares.tsx:378-404 | In the new-shares preview the gap between total and balance is unchanged by the added shares. With added ≥ 0 and a positive new total, the dilution ratio (old total ÷ new total) is defined and at most 1, and it is at least 0 when the old total is not negative. When the price is defined, price × new total = valuation. |
| AllocateShares.SplitPreviewFacts | src/components/events/allocate-shares.tsx:440-458 | In the split preview, new total = total + new shares, and new balance = balance + balance × r. Balance and total keep their proportion (new balance × total = balance × new total). With r > 0 the new total exceeds a positive total and the new balance exceeds a positive balance. |
| AllocateShares.PriorContext | src/components/events/allocate-shares.tsx:83-119 | Nothing is stored without a business snapshot. With one, four entries are stored under `totalShares`, `balanceShares`, `currentValuation` and `preMoneyValuation`, holding the snapshot's figures. |
| AllocateShares.AsWrittenBalanceDisagrees | src/components/events/allocate-shares.tsx:194-198 | As written, the balance after new shares in the batch dispatched to the context slice equals the one the panel shows exactly when the business's balance equals its total. |
| AllocateShares.StoredFiguresMatchPreview | src/components/events/allocate-shares.tsx:139-253 | With the corrected entries, after any edit the stored total and balance after the round equal the panel's figures, for either kind of allocation. |
| AllocateShares.PriorContextSurvivesEdits | src/components/events/allocate-shares.tsx:138-253 | No edit of the form overwrites the four snapshot entries, with the entries as written and with the corrected ones. |
| AiContext.AiContextState.constructor | src/lib/slices/aiContext.ts:17-19 | The store starts empty, which satisfies the invariant that every entry is filed under its own key. |
| AiContext.AiContextState.SetContext | src/lib/slices/aiContext.ts:25-27 | The payload is stored under its own key and every other key is unchanged. The store stays well-formed, with each entry under its own key. |
| AiContext.AiContextState.SetMultipleContext | src/lib/slices/aiContext.ts:28-32 | The loop leaves the store equal to storing the batch's entries one after the other, and keeps it well-formed. |
| AiContext.SetAllLookup | src/lib/slices/aiContext.ts:28-32 | After a batch, a key is present exactly when it was before or the batch has it. A key in the batch holds the batch's last entry for it, and every other key keeps its old entry. |
| AiContext.SetAllUntouched | src/lib/slices/aiContext.ts:28-32 | A key the batch does not mention keeps its entry. |
| AiContext.EntriesUnderOwnKey | src/lib/slices/aiContext.ts:25-32 | Every stored entry sits under its own key. |
| AiContext.SetAllSingle | src/lib/slices/aiContext.ts:25-32 | Dispatching a batch of one entry to `setMultipleContext` gives the same state as `setContext` of that entry. |
| AiContext.SetIdempotent | src/lib/slices/aiContext.ts:25-27 | Storing the same entry twice with `setContext` is the same as storing it once. |
| AiContext.SetAllIdempotent | src/lib/slices/aiContext.ts:28-32 | Storing the same batch twice is the same as storing it once. |
| AiContext.SetAllAppend | src/lib/slices/aiContext.ts:28-32 | Storing two batches in turn is the same as storing their concatenation. |
| Navigator.RestPathOfBusinessPath | src/components/navigator.tsx:19 | For a business page's path, the segments considered are exactly those after `/business/<id>`. |
| Navigator.PathList | src/components/navigator.tsx:17-35 | The loop builds exactly the crumbs of the path's segments, and at most two of them. |
| Navigator.LaterSegmentsIgnored | src/components/navigator.tsx:21-35 | Segments after the second add no crumb. |
| Navigator.CrumbsShape | src/components/navigator.tsx:21-35 | There are at most two crumbs. The first exists exactly when the first segment is dashboards, events, stakeholders or magic, and is that section's crumb. Two crumbs occur exactly for dashboards/overview and events/create, and the second is Overview or Create. |
| Navigator.CrumbLinksStayInBusiness | src/components/navigator.tsx:24-33 | Every crumb's link starts with `/business/<id>/`. |
| Navigator.BusinessHomeFailsAsWritten | src/components/navigator.tsx:40-49 | As written, rendering the breadcrumb on the business home page `/business/<id>` reads a first crumb that does not exist. |
| Navigator.Render | src/components/navigator.tsx:40-49 | The corrected render gives no item exactly for an empty trail. Otherwise it gives the same item as the written render: the first crumb, plus the second crumb's title when there are exactly two. |
| Navigator.NestedPagesShowBothCrumbs | src/components/navigator.tsx:40-49 | The Dashboards › Overview and Events › Create pages show both crumbs. |
| Utils.Capitalize | src/lib/utils.ts:27 | A word keeps its length, with its first character upper-cased and the rest lower-cased; an empty word stays empty. |
| Utils.FormatEnumPointwise | src/lib/utils.ts:24-29 | `formatEnum` keeps the length and turns each '_' into a space. It upper-cases the first character of each word and lower-cases every other character. |
| Utils.FormatEnumIgnoresCase | src/lib/utils.ts:24-29 | `formatEnum` gives the same result for the upper-cased and the lower-cased input. |
| Utils.FormatEnumExample | src/lib/utils.ts:24-29 | The round type `SERIES_A` is shown as "Series A". |
| Utils.FormatEnumContractExample | src/lib/utils.ts:24-29 | `CONVERTIBLE_NOTE` is shown as "Convertible Note". |
| Utils.FormatDateReorders | src/lib/utils.ts:36-39 | A date formatted as day/month/year comes out as year-month-day. |
| MessageTemplates.FirstUser | src/lib/ai/messageTemplates.ts:4 | The message found is a user message from the list. Nothing is found exactly when no message has the role "user". |
| MessageTemplates.FirstUserIsFirst | src/lib/ai/messageTemplates.ts:4 | The message found is the first user message, whatever follows it. |
| MessageTemplates.SystemPrompt | src/lib/ai/messageTemplates.ts:3-16 | The prompt always starts with "You are a helpful assistant. Today is May 9th, 2025.". |
| MessageTemplates.BuildSystemPrompt | src/lib/ai/messageTemplates.ts:3-16 | The function's statements build exactly `SystemPrompt`: the opening sentence, then the date sentence if the lower-cased prompt contains "date", then the time sentence if it contains "time". |
| MessageTemplates.NoUserMessageGivesBase | src/lib/ai/messageTemplates.ts:4-15 | Without a user message the prompt is exactly the opening sentence. |
| MessageTemplates.LaterMessagesIgnored | src/lib/ai/messageTemplates.ts:4 | Messages after the first user message do not change the prompt. |
| MessageTemplates.PromptIgnoresCase | src/lib/ai/messageTemplates.ts:4-12 | Upper-casing the first user message does not change the prompt. |
| MessageTemplates.TimeQuestion | src/lib/ai/messageTemplates.ts:7-12 | "What TIME is it?" adds the time sentence and not the date sentence. |
| ShareholderChart.ShareholdersByType | src/components/dashboard/shareholderChart.tsx:51-57 | The reduce over the holders builds the grouped record `GroupFold` step by step. |
| ShareholderChart.AddGroupTotal | src/components/dashboard/shareholderChart.tsx:52-55 | One reduce step adds the holder's shares to its own type's total and to no other type's total. |
| ShareholderChart.GroupFoldSpec | src/components/dashboard/shareholderChart.tsx:50-64 | The grouping has one entry per type present and none for absent types. Each type's recorded shares are the sum of its holders' shares. The grand total equals the sum of all holders' shares. |
| ShareholderChart.GroupSharesAreTypeTotals | src/components/dashboard/shareholderChart.tsx:51-57 | Each entry holds the total shares of its type. |
| ShareholderChart.FixtureGroups | src/components/dashboard/data.ts:34-77 | On the dashboard's data the computed grouping `shareholdersByType` is Founder 600000, Investor 300000, Employee 100000, in that order, one million in all. No card renders it. |
| ShareholderChart.ShareholderData | src/components/dashboard/shareholderChart.tsx:67-74 | One slice per holder, in the same order, with the holder's name, shares and type. |
| ShareholderChart.SlicesCoverGroups | src/components/dashboard/shareholderChart.tsx:50-74 | The slices of the rendered per-holder pie and the computed per-type grouping cover the same number of shares. The per-type pie itself is not rendered. |
| RoundHistory.SortByTime | src/components/dashboard/roundHistory.tsx:11 | Sorting the array in place leaves it ordered by date and a permutation of what it held. |
| RoundHistory.SortedRounds | src/components/dashboard/roundHistory.tsx:11 | The sorted copy is ordered by date and is a permutation of the rounds. The rounds themselves are a value and are not reordered. |
| RoundHistory.SortedOrderIsUnique | src/components/dashboard/roundHistory.tsx:11 | When no two rounds share a date, every date-ordered permutation is the same sequence. |
| RoundHistory.FixtureOrder | src/components/dashboard/data.ts:78-109 | The dashboard's rounds come out in the order r1, r2, r3. |
| RoundHistory.ChartData | src/components/dashboard/roundHistory.tsx:14-19 | One bar per sorted round, in the same order, with its name, amount and valuation. |
| RoundHistory.FixtureBars | src/components/dashboard/roundHistory.tsx:14-19 | The dashboard's bars are Pre-Seed, Seed and Series A, with their amounts and valuations. |

## Left out

- The server route handlers, the HTTP requests, React Query mutations and cache invalidation are not modelled. A submit ends at the `Posted` outcome.
- Floating-point arithmetic is not modelled: numbers are exact integers and reals. Display rounding (`toFixed`, percentages, the growth figure next to the post-money valuation) is left out.
- Intl formatting is left out: `formatCurrency`, `formatNumber`, `formatDateLong`, and the locale step of `formatDate`. Only `formatDate`'s reordering of the formatted parts is modelled.
- Nothing in the application reaches an assistant. The store registers only the `baseApp` reducer (`src/lib/store.ts:6-8`), so a dispatch to the `aiContext` slice changes no state. The command menu builds the entries' strings and never uses them (`src/components/command-menu.tsx:45-47`). The chat route has its `buildSystemPrompt` call commented out (`src/app/api/chat/route.ts:16`) and sends a fixed prompt of its own (`:37`). The model covers the slice and `buildSystemPrompt` as written, and the batches the forms dispatch; it does not claim that they reach the chat.
- How a value is written into an AI context sentence (`JSON.stringify` or a template literal) is the parameter `show`.
- The clock helpers behind `buildSystemPrompt` are the parameters `today` and `time`.
- RaiseARound.ValidForm: the `Date.parse` check on the date is not modelled. The same holds for the date checks of GrantExit.ValidForm, IssueContract.ValidForm, CreateEvent.ValidForm and AllocateShares.ValidForm.
- `z.coerce.number()` on text is not modelled: form numbers are already numbers. `Number()` of a string is modelled only for strings of decimal digits (the split-ratio options).
- The contract's free-form `rule` field (`z.any()`) carries no constraint and is not modelled.
- Picker lists are sorted with `localeCompare` for display. The candidate functions state membership only, not order.
- Browser constraint validation is modelled only for the `max` on the issued-shares input of the contract-issue form. The implicit `step` of 1 on number inputs, which the browser also enforces, is not modelled: form numbers are taken as entered.
- The "Equity by Type" card renders a fixed placeholder series of browser visitors (`shareholderChart.tsx:7-13`, `101-121`); its pie over `shareholdersByType` is commented out (`124-143`). The placeholder is not modelled; the grouping is modelled as the data that pie would draw.
- AllocateShares.WatchContext: the watch callback reads the business snapshot it captured when it was registered. The model takes the current snapshot; the stale capture is not modelled.
- Upper- and lower-casing is ASCII only.
- MessageTemplates.FirstUser: the optional chaining on a missing message list is not modelled; the list is always present.
- RoundHistory.Round: a round's date is its parsed time in milliseconds; parsing the date string is not modelled.
- RoundHistory.SortByTime: it is an insertion sort that only moves a round past later-dated rounds, so equal dates keep their order. Stability is not stated, and the engine's own sort algorithm is not modelled.
- The mutations' success and error toasts come from the server round-trip and are not modelled.

## Findings

| source | as written | input that shows it | evidently intended | confidence | as-written member | corrected member |
|---|---|---|---|---|---|---|
| src/components/events/allocate-shares.tsx:194-198 | The context entry for the balance after a new-shares round is total shares + added shares. | A business with total 1000, balance 400, adding 100: the panel shows 500, the batch dispatched to the context slice holds 1100. | The balance the panel shows: balance shares + added shares. | high (not executed) | AllocateShares.AsWrittenBalanceDisagrees | AllocateShares.StoredFiguresMatchPreview |
| src/components/events/allocate-shares.tsx:30-37 | Both `addedShares` and `stockSplitRatio` must be positive when present, and `addedShares` defaults to 0 even when hidden in a stock split. | Choose STOCK_SPLIT in the default form, enter a name and ratio 0.5: the schema rejects the hidden `addedShares` of 0. | Each kind of allocation checks only the field it shows. | medium (not executed) | AllocateShares.DefaultSplitRejectedAsWritten | AllocateShares.ValidFormIntended |
| src/components/events/allocate-shares.tsx:134 | The split ratio defaults to 1, while the select shows "1/2" and offers only 0.5, 0.25 and 0.1. | Open the form and choose STOCK_SPLIT without touching the select: the preview and the stored ratio use 1, not the 0.5 shown. | The default ratio is the first option's value, 0.5. | medium (not executed) | AllocateShares.DefaultRatioNotAChoice | AllocateShares.DefaultForm |
| src/components/navigator.tsx:40 | The breadcrumb reads `pathList[0]` even when no crumb was pushed. | The business home page `/business/<id>`, whose layout renders the breadcrumb: there are no segments and no crumbs, and reading `.link` of `undefined` throws. | Render no breadcrumb item for an empty trail. | high (not executed) | Navigator.BusinessHomeFailsAsWritten | Navigator.Render |

=== FILE: ai_context.dfy ===
/**
 * The Redux slice `aiContext`, meant to hold facts for the AI assistant: a
 * dictionary of context entries keyed by name, filled one entry or one batch
 * at a time.  The app's store does not register this slice, so in the
 * running app a dispatch to it changes nothing; the slice is modelled as
 * written.
 */
module AiContext {
  import opened Wrappers
  import opened Lookup

  /** The raw value behind an entry: a number, a non-finite number (a
      division by zero), a string, or `undefined`. */
  datatype RawValue = Num(n: real) | NonFinite | Text(s: string) | Undefined

  /** One entry: what is said about the value, its key, and the value. */
  datatype Context = Context(contextString: string, key: string, rawValue: RawValue)

  function ContextKey(c: Context): string
  {
    c.key
  }

  /** `state.value[c.key] = c`. */
  function Set(m: map<string, Context>, c: Context): map<string, Context>
  {
    m[c.key := c]
  }

  /** The entries of `cs` stored one after the other, first to last. */
  function SetAll(m: map<string, Context>, cs: seq<Context>): map<string, Context>
  {
    if cs == [] then m else Set(SetAll(m, cs[..|cs| - 1]), cs[|cs| - 1])
  }

  /** After storing a batch, a key is present exactly when it was before or
      the batch has it; a key in the batch holds the batch's last entry for
      it, and any other key keeps its old entry. */
  lemma {:induction false} SetAllLookup(m: map<string, Context>, cs: seq<Context>, k: string)
    ensures k in SetAll(m, cs) <==> k in m || LastWithKey(cs, ContextKey, k).Some?
    ensures LastWithKey(cs, ContextKey, k).Some? ==> SetAll(m, cs)[k] == LastWithKey(cs, ContextKey, k).value
    ensures LastWithKey(cs, ContextKey, k).None? && k in m ==> SetAll(m, cs)[k] == m[k]
  {
    if cs != [] {
      SetAllLookup(m, cs[..|cs| - 1], k);
    }
  }

  /** A batch without entries for a key leaves that key's entry alone. */
  lemma SetAllUntouched(m: map<string, Context>, cs: seq<Context>, k: string)
    requires k in m && forall i :: 0 <= i < |cs| ==> cs[i].key != k
    ensures k in SetAll(m, cs) && SetAll(m, cs)[k] == m[k]
  {
    SetAllLookup(m, cs, k);
    LastWithKeyIsLast(cs, ContextKey, k);
  }

  /** Every entry stored is filed under its own key. */
  lemma EntriesUnderOwnKey(m: map<string, Context>, cs: seq<Context>, k: string)
    requires forall j :: j in m ==> m[j].key == j
    requires k in SetAll(m, cs)
    ensures SetAll(m, cs)[k].key == k
  {
    SetAllLookup(m, cs, k);
    if LastWithKey(cs, ContextKey, k).Some? {
      LastWithKeyIsLast(cs, ContextKey, k);
    }
  }

  /** Storing the same batch twice is the same as storing it once. */
  lemma SetAllIdempotent(m: map<string, Context>, cs: seq<Context>)
    ensures SetAll(SetAll(m, cs), cs) == SetAll(m, cs)
  {
    var once := SetAll(m, cs);
    forall k ensures (k in SetAll(once, cs) <==> k in once) && (k in once ==> SetAll(once, cs)[k] == once[k]) {
      SetAllLookup(m, cs, k);
      SetAllLookup(once, cs, k);
    }
  }

  /** A batch of one entry is `setContext` of that entry. */
  lemma SetAllSingle(m: map<string, Context>, c: Context)
    ensures SetAll(m, [c]) == Set(m, c)
  {
    assert [c][..0] == [];
  }

  /** `setContext` is idempotent: storing the same entry twice is storing it
      once. */
  lemma SetIdempotent(m: map<string, Context>, c: Context)
    ensures Set(Set(m, c), c) == Set(m, c)
  {
    SetAllSingle(m, c);
    SetAllSingle(Set(m, c), c);
    SetAllIdempotent(m, [c]);
  }

  /** Storing two batches in turn is storing them as one. */
  lemma {:induction false} SetAllAppend(m: map<string, Context>, cs: seq<Context>, ds: seq<Context>)
    ensures SetAll(m, cs + ds) == SetAll(SetAll(m, cs), ds)
    decreases |ds|
  {
    if ds == [] {
      assert cs + ds == cs;
    } else {
      assert (cs + ds)[..|cs + ds| - 1] == cs + ds[..|ds| - 1];
      SetAllAppend(m, cs, ds[..|ds| - 1]);
    }
  }

  /** The Redux slice `aiContext`. */
  class AiContextState {
    var value: map<string, Context>

    /** The initial state: no entries. */
    constructor ()
      ensures Valid()
      ensures value == map[]
    {
      value := map[];
    }

    /** Every entry is filed under its own key. */
    predicate Valid()
      reads this
    {
      forall k :: k in value ==> value[k].key == k
    }

    /** `setContext`: stores one entry under its key. */
    method SetContext(c: Context)
      requires Valid()
      modifies this
      ensures Valid()
      ensures value == Set(old(value), c)
    {
      value := value[c.key := c];
    }

    /** `setMultipleContext`: stores the entries of a batch one after the other. */
    method SetMultipleContext(cs: seq<Context>)
      requires Valid()
      modifies this
      ensures Valid()
      ensures value == SetAll(old(value), cs)
    {
      var i := 0;
      while i < |cs|
        invariant 0 <= i <= |cs|
        invariant value == SetAll(old(value), cs[..i])
        invariant Valid()
      {
        assert cs[..i + 1][..i] == cs[..i];
        value := value[cs[i].key := cs[i]];
        i := i + 1;
      }
      assert cs[..i] == cs;
    }
  }
}

=== FILE: allocate_shares.dfy ===
/**
 * The "Allocate Shares" form: either new shares are created (NEW_SHARES) or
 * every share is split (STOCK_SPLIT).  While the form is edited, its preview
 * panel shows the resulting share counts, and the same figures are
 * dispatched as a batch of context entries to the `aiContext` slice.
 */
module AllocateShares {
  import opened Wrappers
  import opened Strings
  import opened Ledger
  import opened Lookup
  import opened AiContext

  /** The values of the form, as typed so far. */
  datatype AllocateForm = AllocateForm(
    roundType: RoundType,
    name: string,
    date: string,
    valuation: real,
    addedShares: Option<real>,
    stockSplitRatio: Option<real>)

  predicate PositiveOrAbsent(x: Option<real>)
  {
    x.Some? ==> x.value > 0.0
  }

  /** The form the dialog opens with. */
  function DefaultFormAsWritten(info: Option<BusinessInfo>, today: string): AllocateForm
  {
    AllocateForm(RoundType.NEW_SHARES, "", today, PostMoneyBefore(info), Some(0.0), Some(1.0))
  }

  /** What the schema accepts, as written: both share fields are checked
      whichever kind of allocation is chosen (the date is only checked to
      parse, which is not modelled). */
  predicate ValidFormAsWritten(f: AllocateForm)
  {
    (f.roundType == RoundType.NEW_SHARES || f.roundType == RoundType.STOCK_SPLIT) &&
    |f.name| > 0 && f.valuation >= 0.0 &&
    PositiveOrAbsent(f.addedShares) && PositiveOrAbsent(f.stockSplitRatio)
  }

  /** The field for added shares is hidden in a stock split but keeps its
      default 0, so a stock split started from the default form is rejected
      whatever is typed into the fields it shows. */
  lemma DefaultSplitRejectedAsWritten(info: Option<BusinessInfo>, today: string, name: string, valuation: real, ratio: real)
    ensures !ValidFormAsWritten(DefaultFormAsWritten(info, today).(
      roundType := RoundType.STOCK_SPLIT, name := name, valuation := valuation, stockSplitRatio := Some(ratio)))
  {
  }

  /** The schema as intended: each kind of allocation checks only the share
      field it shows. */
  predicate ValidForm(f: AllocateForm)
  {
    (f.roundType == RoundType.NEW_SHARES || f.roundType == RoundType.STOCK_SPLIT) &&
    |f.name| > 0 && f.valuation >= 0.0 &&
    (f.roundType == RoundType.NEW_SHARES ==> PositiveOrAbsent(f.addedShares)) &&
    (f.roundType == RoundType.STOCK_SPLIT ==> PositiveOrAbsent(f.stockSplitRatio))
  }

  /** The intended schema accepts a named stock split with a positive ratio
      started from the default form, still rejects new shares left at 0, and
      agrees with the schema as written whenever the hidden field is valid. */
  lemma ValidFormIntended(info: Option<BusinessInfo>, today: string, name: string, f: AllocateForm, ratio: real)
    requires |name| > 0 && PostMoneyBefore(info) >= 0.0 && ratio > 0.0
    ensures ValidForm(DefaultFormAsWritten(info, today).(
      roundType := RoundType.STOCK_SPLIT, name := name, stockSplitRatio := Some(ratio)))
    ensures !ValidForm(DefaultFormAsWritten(info, today).(name := name))
    ensures PositiveOrAbsent(f.addedShares) && PositiveOrAbsent(f.stockSplitRatio) ==>
      (ValidForm(f) <==> ValidFormAsWritten(f))
  {
  }

  /** `form.handleSubmit(onSubmit)`, as written: anything the schema as
      written accepts is posted, so a stock split started from the default
      form is never posted. */
  function Submit(businessId: string, f: AllocateForm): (r: Outcome<AllocateForm>)
    ensures r.Posted? <==> ValidFormAsWritten(f)
    ensures r.Posted? ==> r.endpoint == EventEndpoint(businessId, "allocate-shares") && r.body == f
    ensures !r.Refused?
    ensures !r.Blocked?
  {
    if ValidFormAsWritten(f) then Posted(EventEndpoint(businessId, "allocate-shares"), f) else Invalid
  }

  /** `form.handleSubmit(onSubmit)` with the schema as intended: anything it
      accepts is posted. */
  function SubmitIntended(businessId: string, f: AllocateForm): (r: Outcome<AllocateForm>)
    ensures r.Posted? <==> ValidForm(f)
    ensures r.Posted? ==> r.endpoint == EventEndpoint(businessId, "allocate-shares") && r.body == f
    ensures !r.Refused?
    ensures !r.Blocked?
  {
    if ValidForm(f) then Posted(EventEndpoint(businessId, "allocate-shares"), f) else Invalid
  }

  /** The two submits differ only on forms whose hidden share field is
      invalid: a stock split from the default form is posted by the intended
      submit and not by the one as written. */
  lemma SubmitsDiffer(info: Option<BusinessInfo>, today: string, businessId: string, name: string, ratio: real, f: AllocateForm)
    requires |name| > 0 && PostMoneyBefore(info) >= 0.0 && ratio > 0.0
    ensures var g := DefaultFormAsWritten(info, today).(
      roundType := RoundType.STOCK_SPLIT, name := name, stockSplitRatio := Some(ratio));
      SubmitIntended(businessId, g).Posted? && !Submit(businessId, g).Posted?
    ensures PositiveOrAbsent(f.addedShares) && PositiveOrAbsent(f.stockSplitRatio) ==>
      Submit(businessId, f) == SubmitIntended(businessId, f)
  {
    var g := DefaultFormAsWritten(info, today).(
      roundType := RoundType.STOCK_SPLIT, name := name, stockSplitRatio := Some(ratio));
    ValidFormIntended(info, today, name, f, ratio);
    DefaultSplitRejectedAsWritten(info, today, name, g.valuation, ratio);
  }

  // ---------------------------------------------------------------------
  // The split-ratio choices.

  /** `Number(key.split('/')[0]) / Number(key.split('/')[1])`; None is NaN or
      a division by zero. */
  function RatioOf(key: string): Option<real>
  {
    var parts := Split(key, '/');
    if |parts| < 2 then None
    else
      var a := NumberOf(parts[0]);
      var b := NumberOf(parts[1]);
      if a.None? || b.None? || b.value == 0 then None else Some(a.value as real / b.value as real)
  }

  /** A choice written "a/b" stands for a divided by b. */
  lemma RatioOfFraction(a: nat, b: nat)
    requires b > 0
    ensures RatioOf(NatToString(a) + "/" + NatToString(b)) == Some(a as real / b as real)
  {
    var sa, sb := NatToString(a), NatToString(b);
    assert '/' !in sa;
    assert '/' !in sb;
    SplitAtFirst(sa, sb, '/');
    SplitNoSeparator(sb, '/');
    assert sa + "/" + sb == sa + ['/'] + sb;
    DecimalValueOfNatToString(a);
    DecimalValueOfNatToString(b);
  }

  /** The choices the form offers. */
  const RatioChoices: seq<string> := ["1/2", "1/4", "1/10"]

  /** The three choices are a half, a quarter and a tenth. */
  lemma RatioChoiceValues()
    ensures RatioOf(RatioChoices[0]) == Some(0.5)
    ensures RatioOf(RatioChoices[1]) == Some(0.25)
    ensures RatioOf(RatioChoices[2]) == Some(0.1)
  {
    RatioOfChoice(0, 1, 2);
    RatioOfChoice(1, 1, 4);
    assert NatToString(10) == NatToString(1) + "0";
    RatioOfChoice(2, 1, 10);
  }

  lemma RatioOfChoice(k: nat, a: nat, b: nat)
    requires k < |RatioChoices| && b > 0
    requires RatioChoices[k] == NatToString(a) + "/" + NatToString(b)
    ensures RatioOf(RatioChoices[k]) == Some(a as real / b as real)
  {
    RatioOfFraction(a, b);
  }

  /** The default ratio is not one of the choices: the selector shows "1/2"
      while the form holds 1. */
  lemma DefaultRatioNotAChoice(info: Option<BusinessInfo>, today: string)
    ensures forall k :: 0 <= k < |RatioChoices| ==>
      RatioOf(RatioChoices[k]) != DefaultFormAsWritten(info, today).stockSplitRatio
  {
    RatioChoiceValues();
  }

  /** The default form as intended: the ratio is the "1/2" the selector
      shows, and a stock split needs nothing but a name. */
  function DefaultForm(info: Option<BusinessInfo>, today: string): (f: AllocateForm)
    ensures f.stockSplitRatio == RatioOf(RatioChoices[0])
    ensures forall name :: |name| > 0 && PostMoneyBefore(info) >= 0.0 ==>
      ValidForm(f.(roundType := RoundType.STOCK_SPLIT, name := name))
  {
    RatioChoiceValues();
    DefaultFormAsWritten(info, today).(stockSplitRatio := Some(0.5))
  }

  // ---------------------------------------------------------------------
  // The preview panel.

  /** `a / b`, with None for the non-finite results of dividing by zero. */
  function Div(a: real, b: real): (r: Option<real>)
    ensures r.None? <==> b == 0.0
    ensures r.Some? ==> r.value * b == a
  {
    if b == 0.0 then None else Some(a / b)
  }

  datatype NewSharesFigures = NewSharesFigures(
    balanceAfter: real,
    totalAfter: real,
    dilutionRatio: Option<real>,
    pricePerShare: Option<real>)

  /** What the panel shows for new shares: balance and total each grow by
      the added shares; the dilution ratio and price divide by the new total. */
  function NewSharesPreview(info: Option<BusinessInfo>, f: AllocateForm): NewSharesFigures
  {
    var added := f.addedShares.GetOr(0.0);
    var totalAfter := TotalBefore(info) as real + added;
    NewSharesFigures(
      BalanceBefore(info) as real + added,
      totalAfter,
      Div(TotalBefore(info) as real, totalAfter),
      Div(f.valuation, totalAfter))
  }

  /** Adding new shares leaves the allocated shares (total minus balance) as
      they were, keeps the old holders' fraction at most one (and at least
      zero when the old total is not negative), and prices a share so that
      all shares together are worth the valuation. */
  lemma NewSharesPreviewFacts(info: Option<BusinessInfo>, f: AllocateForm)
    ensures var p := NewSharesPreview(info, f);
      p.totalAfter - p.balanceAfter == (TotalBefore(info) - BalanceBefore(info)) as real
    ensures var p := NewSharesPreview(info, f);
      f.addedShares.GetOr(0.0) >= 0.0 && p.totalAfter > 0.0 ==>
        p.dilutionRatio.Some? && p.dilutionRatio.value <= 1.0
    ensures var p := NewSharesPreview(info, f);
      TotalBefore(info) >= 0 && f.addedShares.GetOr(0.0) >= 0.0 && p.totalAfter > 0.0 ==>
        p.dilutionRatio.Some? && 0.0 <= p.dilutionRatio.value
    ensures var p := NewSharesPreview(info, f);
      p.pricePerShare.Some? ==> p.pricePerShare.value * p.totalAfter == f.valuation
  {
    var p := NewSharesPreview(info, f);
    if f.addedShares.GetOr(0.0) >= 0.0 && p.totalAfter > 0.0 {
      var r := p.dilutionRatio.value;
      assert r * p.totalAfter == TotalBefore(info) as real;
      assert TotalBefore(info) as real <= p.totalAfter;
    }
  }

  datatype SplitFigures = SplitFigures(newShares: real, totalAfter: real, balanceAfter: real)

  /** What the panel shows for a split by ratio r: r new shares per share, so
      totals and balance each grow by the factor 1 + r. */
  function SplitPreview(info: Option<BusinessInfo>, f: AllocateForm): SplitFigures
  {
    var r := f.stockSplitRatio.GetOr(0.0);
    SplitFigures(
      TotalBefore(info) as real * r,
      TotalBefore(info) as real * (1.0 + r),
      BalanceBefore(info) as real * (1.0 + r))
  }

  /** A split adds its new shares to the total, gives the balance r new
      shares per share, scales total and balance by the same factor (so the
      unallocated fraction is unchanged), and with a positive ratio strictly
      grows a positive total and a positive balance. */
  lemma SplitPreviewFacts(info: Option<BusinessInfo>, f: AllocateForm)
    ensures var p := SplitPreview(info, f);
      p.totalAfter == TotalBefore(info) as real + p.newShares
    ensures var p := SplitPreview(info, f);
      p.balanceAfter * TotalBefore(info) as real == BalanceBefore(info) as real * p.totalAfter
    ensures var p := SplitPreview(info, f);
      f.stockSplitRatio.GetOr(0.0) > 0.0 && TotalBefore(info) > 0 ==> p.totalAfter > TotalBefore(info) as real
    ensures var p := SplitPreview(info, f);
      p.balanceAfter == BalanceBefore(info) as real + BalanceBefore(info) as real * f.stockSplitRatio.GetOr(0.0)
    ensures var p := SplitPreview(info, f);
      f.stockSplitRatio.GetOr(0.0) > 0.0 && BalanceBefore(info) > 0 ==> p.balanceAfter > BalanceBefore(info) as real
  {
    var t, b, r := TotalBefore(info) as real, BalanceBefore(info) as real, f.stockSplitRatio.GetOr(0.0);
    assert b * (1.0 + r) * t == b * (t * (1.0 + r));
    if r > 0.0 && t > 0.0 {
      assert t * r > 0.0;
    }
    if r > 0.0 && b > 0.0 {
      assert b * r > 0.0;
    }
  }

  // ---------------------------------------------------------------------
  // The batches dispatched to the context slice.  How a value is written into the
  // sentence (`JSON.stringify` or a template literal) is the parameter
  // `show`.

  function Entry(key: string, sentence: string, raw: RawValue, show: RawValue -> string): Context
  {
    Context(sentence + show(raw), key, raw)
  }

  function NumOrNonFinite(x: Option<real>): RawValue
  {
    if x.Some? then Num(x.value) else NonFinite
  }

  function NumOrUndefined(x: Option<real>): RawValue
  {
    if x.Some? then Num(x.value) else Undefined
  }

  // The sentences the entries start or end with, kept as named constants.
  const TotalSharesSaid: string := " is the total no. of shares in the company before this round"
  const BalanceSharesSaid: string := " is the total no. of balance shares in the company before this round"
  const CurrentValuationSaid: string := " is the current valuation and post money valuation of the last round of the company"
  const PreMoneySaid: string := " is the pre money valuation of the last round of the company"
  const TypeOfEventSaid: string := "Type of round being raised is "
  const NameOfEventSaid: string := "Name of round being raised is is "
  const DateOfEventSaid: string := "Date of round being raised is "
  const ValuationOfEventSaid: string := "Valuation after this round is "
  const AddedSharesSaid: string := "Added shares in the round being raised are "
  const DilutionRatioSaid: string := "Dilution ratio after the round being raised will be "
  const PricePerShareSaid: string := "Price per share after the round being raised will be "
  const TotalAfterSaid: string := "Total shares after the round being raised will be "
  const BalanceAfterSaid: string := "Balance shares after the round being raised will be "
  const SplitRatioSaid: string := "Stock split ratio in the round being raised are "
  const NewSharesSaid: string := "New shares after the round being raised will be "

  /** The facts stored as soon as the business snapshot arrives; nothing is
      stored while there is no snapshot. */
  function PriorContext(info: Option<BusinessInfo>, show: RawValue -> string): (cs: seq<Context>)
    ensures info.None? <==> cs == []
    ensures info.Some? ==>
      |cs| == 4 &&
      cs[0].key == "totalShares" && cs[0].rawValue == Num(info.value.totalShares as real) &&
      cs[1].key == "balanceShares" && cs[1].rawValue == Num(info.value.balanceShares as real) &&
      cs[2].key == "currentValuation" && cs[2].rawValue == Num(info.value.postMoneyValuation) &&
      cs[3].key == "preMoneyValuation" && cs[3].rawValue == Num(info.value.preMoneyValuation)
  {
    if info.None? then []
    else
    [ Context(show(Num(TotalBefore(info) as real)) + TotalSharesSaid,
              "totalShares", Num(TotalBefore(info) as real)),
      Context(show(Num(BalanceBefore(info) as real)) + BalanceSharesSaid,
              "balanceShares", Num(BalanceBefore(info) as real)),
      Context(show(Num(PostMoneyBefore(info))) + CurrentValuationSaid,
              "currentValuation", Num(PostMoneyBefore(info))),
      Context(show(Num(PreMoneyBefore(info))) + PreMoneySaid,
              "preMoneyValuation", Num(PreMoneyBefore(info))) ]
  }

  /** The four entries every kind of allocation stores first. */
  function EventContext(f: AllocateForm, show: RawValue -> string): seq<Context>
  {
    [ Entry("typeOfEvent", TypeOfEventSaid, Text(RoundTypeName(f.roundType)), show),
      Entry("nameOfEvent", NameOfEventSaid, Text(f.name), show),
      Entry("dateOfEvent", DateOfEventSaid, Text(f.date), show),
      Entry("valuationOfEvent", ValuationOfEventSaid, Num(f.valuation), show) ]
  }

  /** The entries stored while new shares are edited, given the value stored
      as the balance after the round. */
  function NewSharesContextWith(info: Option<BusinessInfo>, f: AllocateForm, balanceAfter: real, show: RawValue -> string): seq<Context>
  {
    var p := NewSharesPreview(info, f);
    EventContext(f, show) +
    [ Entry("addedShares", AddedSharesSaid, NumOrUndefined(f.addedShares), show),
      Entry("dilutionRatioAfterTheRound", DilutionRatioSaid, NumOrNonFinite(p.dilutionRatio), show),
      Entry("pricePerShareAfterTheRound", PricePerShareSaid, NumOrNonFinite(p.pricePerShare), show),
      Entry("totalSharesAfterTheRound", TotalAfterSaid, Num(p.totalAfter), show),
      Entry("balanceSharesAfterTheRound", BalanceAfterSaid, Num(balanceAfter), show) ]
  }

  /** As written, the balance after new shares is stored as the old total
      plus the added shares. */
  function NewSharesContextAsWritten(info: Option<BusinessInfo>, f: AllocateForm, show: RawValue -> string): seq<Context>
  {
    NewSharesContextWith(info, f, TotalBefore(info) as real + f.addedShares.GetOr(0.0), show)
  }

  /** The entries as intended: the balance after new shares is the one the
      preview panel shows. */
  function NewSharesContext(info: Option<BusinessInfo>, f: AllocateForm, show: RawValue -> string): seq<Context>
  {
    NewSharesContextWith(info, f, NewSharesPreview(info, f).balanceAfter, show)
  }

  /** The entries stored while a split is edited. */
  function SplitContext(info: Option<BusinessInfo>, f: AllocateForm, show: RawValue -> string): seq<Context>
  {
    var p := SplitPreview(info, f);
    EventContext(f, show) +
    [ Entry("stockSplitRatio", SplitRatioSaid, NumOrUndefined(f.stockSplitRatio), show),
      Entry("newSharesAfterTheRound", NewSharesSaid, Num(p.newShares), show),
      Entry("totalSharesAfterTheRound", TotalAfterSaid, Num(p.totalAfter), show),
      Entry("balanceSharesAfterTheRound", BalanceAfterSaid, Num(p.balanceAfter), show) ]
  }

  /** The batch stored on every edit of the form, as written. */
  function WatchContextAsWritten(info: Option<BusinessInfo>, f: AllocateForm, show: RawValue -> string): seq<Context>
  {
    if f.roundType == RoundType.NEW_SHARES then NewSharesContextAsWritten(info, f, show) else SplitContext(info, f, show)
  }

  /** The batch stored on every edit of the form, as intended. */
  function WatchContext(info: Option<BusinessInfo>, f: AllocateForm, show: RawValue -> string): seq<Context>
  {
    if f.roundType == RoundType.NEW_SHARES then NewSharesContext(info, f, show) else SplitContext(info, f, show)
  }

  /** As written, the balance after new shares that the batch dispatched to
      the context slice holds differs from the one the panel shows exactly
      when the business has allocated shares (its balance differs from its
      total). */
  lemma AsWrittenBalanceDisagrees(info: Option<BusinessInfo>, f: AllocateForm, show: RawValue -> string, m: map<string, Context>)
    ensures var stored := SetAll(m, NewSharesContextAsWritten(info, f, show));
      "balanceSharesAfterTheRound" in stored &&
      ((stored["balanceSharesAfterTheRound"].rawValue == Num(NewSharesPreview(info, f).balanceAfter)) <==>
        BalanceBefore(info) == TotalBefore(info))
  {
    var cs := NewSharesContextAsWritten(info, f, show);
    SetAllLookup(m, cs, "balanceSharesAfterTheRound");
    assert LastWithKey(cs, ContextKey, "balanceSharesAfterTheRound") == Some(cs[8]);
  }

  /** As intended, after any edit the batch dispatched to the context slice
      holds the same total and balance the panel shows, for either kind of
      allocation. */
  lemma StoredFiguresMatchPreview(info: Option<BusinessInfo>, f: AllocateForm, show: RawValue -> string, m: map<string, Context>)
    ensures var stored := SetAll(m, WatchContext(info, f, show));
      "totalSharesAfterTheRound" in stored && "balanceSharesAfterTheRound" in stored &&
      (f.roundType == RoundType.NEW_SHARES ==>
        stored["totalSharesAfterTheRound"].rawValue == Num(NewSharesPreview(info, f).totalAfter) &&
        stored["balanceSharesAfterTheRound"].rawValue == Num(NewSharesPreview(info, f).balanceAfter)) &&
      (f.roundType != RoundType.NEW_SHARES ==>
        stored["totalSharesAfterTheRound"].rawValue == Num(SplitPreview(info, f).totalAfter) &&
        stored["balanceSharesAfterTheRound"].rawValue == Num(SplitPreview(info, f).balanceAfter))
  {
    var cs := WatchContext(info, f, show);
    SetAllLookup(m, cs, "totalSharesAfterTheRound");
    SetAllLookup(m, cs, "balanceSharesAfterTheRound");
    if f.roundType == RoundType.NEW_SHARES {
      assert LastWithKey(cs, ContextKey, "balanceSharesAfterTheRound") == Some(cs[8]);
      assert LastWithKey(cs, ContextKey, "totalSharesAfterTheRound") == Some(cs[7]);
    } else {
      assert LastWithKey(cs, ContextKey, "balanceSharesAfterTheRound") == Some(cs[7]);
      assert LastWithKey(cs, ContextKey, "totalSharesAfterTheRound") == Some(cs[6]);
    }
  }

  /** The figures stored before the round stay in the store while the form is
      edited: no edit overwrites them, with the entries as written or as
      intended. */
  lemma PriorContextSurvivesEdits(info: Option<BusinessInfo>, f: AllocateForm, show: RawValue -> string, m: map<string, Context>, k: nat)
    requires k < |PriorContext(info, show)|
    ensures var prior := PriorContext(info, show);
      var stored := SetAll(SetAll(m, prior), WatchContext(info, f, show));
      prior[k].key in stored && stored[prior[k].key] == prior[k]
    ensures var prior := PriorContext(info, show);
      var stored := SetAll(SetAll(m, prior), WatchContextAsWritten(info, f, show));
      prior[k].key in stored && stored[prior[k].key] == prior[k]
  {
    var prior := PriorContext(info, show);
    PriorStored(info, show, m, k);
    WatchContextKeys(info, f, show);
    assert prior[k].key !in WatchKeys;
    SetAllUntouched(SetAll(m, prior), WatchContext(info, f, show), prior[k].key);
    SetAllUntouched(SetAll(m, prior), WatchContextAsWritten(info, f, show), prior[k].key);
  }

  lemma PriorStored(info: Option<BusinessInfo>, show: RawValue -> string, m: map<string, Context>, k: nat)
    requires k < |PriorContext(info, show)|
    ensures var prior := PriorContext(info, show);
      prior[k].key in SetAll(m, prior) && SetAll(m, prior)[prior[k].key] == prior[k]
  {
    var prior := PriorContext(info, show);
    SetAllLookup(m, prior, prior[k].key);
    LastWithKeyAt(prior, ContextKey, prior[k].key, k);
  }

  /** Every key an edit of the form may store. */
  const WatchKeys: set<string> := {
    "typeOfEvent", "nameOfEvent", "dateOfEvent", "valuationOfEvent", "addedShares",
    "dilutionRatioAfterTheRound", "pricePerShareAfterTheRound", "totalSharesAfterTheRound",
    "balanceSharesAfterTheRound", "stockSplitRatio", "newSharesAfterTheRound" }

  lemma WatchContextKeys(info: Option<BusinessInfo>, f: AllocateForm, show: RawValue -> string)
    ensures forall i :: 0 <= i < |WatchContext(info, f, show)| ==> WatchContext(info, f, show)[i].key in WatchKeys
    ensures forall i :: 0 <= i < |WatchContextAsWritten(info, f, show)| ==>
      WatchContextAsWritten(info, f, show)[i].key in WatchKeys
  {
  }
}

=== FILE: create_event.dfy ===
/**
 * The free-form "Create Event" dialog: a round with investors and dilutions
 * named by hand.  Its schema insists that the shares given to investors
 * equal the shares taken from diluted holders; saving only confirms and
 * closes the dialog.
 */
module CreateEvent {
  import opened Wrappers
  import opened Folds
  import opened Ledger

  /** A contract attached to an investor (its free-form rule is not modelled). */
  datatype ContractTemplate = ContractTemplate(title: string, description: Option<string>)

  datatype NewInvestment = NewInvestment(
    stakeholderName: string,
    contracts: seq<ContractTemplate>,
    amount: real,
    shares: int,
    notes: Option<string>)

  /** A dilution naming the holder by hand. */
  datatype NamedDilution = NamedDilution(name: string, shares: int)

  datatype EventRound = EventRound(name: string, roundType: RoundType, date: string, valuation: real)

  /** The values of the whole form. */
  datatype EventForm = EventForm(
    round: EventRound,
    investments: seq<NewInvestment>,
    dilutions: seq<NamedDilution>)

  /** What saving ends in: the schema rejects the form, or a success toast is
      shown and the dialog closes (nothing is sent anywhere). */
  datatype SaveOutcome = Rejected | Saved(toast: string)

  function NewInvestmentShares(x: NewInvestment): int
  {
    x.shares
  }

  function NamedDilutionShares(d: NamedDilution): int
  {
    d.shares
  }

  /** The schema's refinement: shares allocated to investors equal shares diluted. */
  predicate SharesMatch(f: EventForm)
  {
    Sum(f.investments, NewInvestmentShares) == Sum(f.dilutions, NamedDilutionShares)
  }

  /** What the schema accepts (the date is only checked to parse, which is not
      modelled). */
  predicate ValidForm(f: EventForm)
  {
    |f.round.name| > 0 && f.round.valuation >= 0.0 &&
    (forall i :: 0 <= i < |f.investments| ==>
      |f.investments[i].stakeholderName| > 0 && f.investments[i].amount >= 0.0 && f.investments[i].shares >= 0) &&
    (forall j :: 0 <= j < |f.dilutions| ==> |f.dilutions[j].name| > 0 && f.dilutions[j].shares >= 0) &&
    SharesMatch(f)
  }

  /** `form.handleSubmit(onSubmit)`. */
  function Submit(f: EventForm): (r: SaveOutcome)
    ensures r.Saved? <==> ValidForm(f)
    ensures r.Saved? ==> r.toast == "Investment round saved successfully!"
  {
    if ValidForm(f) then Saved("Investment round saved successfully!") else Rejected
  }

  /** The form the dialog opens with: an empty round name, one blank investor
      and one blank dilution, all at zero. */
  function DefaultForm(today: string): EventForm
  {
    EventForm(
      EventRound("", RoundType.SERIES_A, today, 0.0),
      [NewInvestment("", [], 0.0, 0, Some(""))],
      [NamedDilution("", 0)])
  }

  /** The default form cannot be saved as it stands, but only its names are
      missing: filling them in makes it acceptable, its shares already match. */
  lemma DefaultFormNeedsOnlyNames(today: string, roundName: string, investor: string, diluted: string)
    requires |roundName| > 0 && |investor| > 0 && |diluted| > 0
    ensures Submit(DefaultForm(today)).Rejected?
    ensures Submit(EventForm(
      EventRound(roundName, RoundType.SERIES_A, today, 0.0),
      [NewInvestment(investor, [], 0.0, 0, Some(""))],
      [NamedDilution(diluted, 0)])).Saved?
  {
    var invs := [NewInvestment(investor, [], 0.0, 0, Some(""))];
    var dils := [NamedDilution(diluted, 0)];
    assert Sum(invs, NewInvestmentShares) == 0 by { assert invs[..0] == []; }
    assert Sum(dils, NamedDilutionShares) == 0 by { assert dils[..0] == []; }
  }

  /** Whether the shares match does not depend on the order of the rows. */
  lemma SharesMatchIgnoresOrder(f: EventForm, g: EventForm)
    requires multiset(f.investments) == multiset(g.investments)
    requires multiset(f.dilutions) == multiset(g.dilutions)
    ensures SharesMatch(f) <==> SharesMatch(g)
  {
    SumPermutation(f.investments, g.investments, NewInvestmentShares);
    SumPermutation(f.dilutions, g.dilutions, NamedDilutionShares);
  }

  /** Adding an investor and a dilution of equal shares keeps the shares
      matching, and any unequal pair breaks a match. */
  lemma AddPair(f: EventForm, x: NewInvestment, d: NamedDilution)
    requires SharesMatch(f)
    ensures SharesMatch(f.(investments := f.investments + [x], dilutions := f.dilutions + [d])) <==> x.shares == d.shares
  {
    assert (f.investments + [x])[..|f.investments|] == f.investments;
    assert (f.dilutions + [d])[..|f.dilutions|] == f.dilutions;
  }
}

=== FILE: folds.dfy ===
/**
 * The `reduce` and `filter` folds the forms and dashboards use: left-to-right
 * sums of a per-element figure, and order-preserving filtering.
 */
module Folds {

  /** `xs.reduce((acc, x) => acc + f(x), 0)`: processed from the left, so the
      last element is added last. */
  function Sum<T>(xs: seq<T>, f: T -> int): int
  {
    if xs == [] then 0 else Sum(xs[..|xs| - 1], f) + f(xs[|xs| - 1])
  }

  /** The same fold over exact reals (amounts and valuations). */
  function SumReal<T>(xs: seq<T>, f: T -> real): real
  {
    if xs == [] then 0.0 else SumReal(xs[..|xs| - 1], f) + f(xs[|xs| - 1])
  }

  lemma {:induction false} SumAppend<T>(xs: seq<T>, ys: seq<T>, f: T -> int)
    ensures Sum(xs + ys, f) == Sum(xs, f) + Sum(ys, f)
    decreases |ys|
  {
    if ys == [] {
      assert xs + ys == xs;
    } else {
      var init := ys[..|ys| - 1];
      assert (xs + ys)[..|xs + ys| - 1] == xs + init;
      SumAppend(xs, init, f);
    }
  }

  lemma {:induction false} SumRealAppend<T>(xs: seq<T>, ys: seq<T>, f: T -> real)
    ensures SumReal(xs + ys, f) == SumReal(xs, f) + SumReal(ys, f)
    decreases |ys|
  {
    if ys == [] {
      assert xs + ys == xs;
    } else {
      var init := ys[..|ys| - 1];
      assert (xs + ys)[..|xs + ys| - 1] == xs + init;
      SumRealAppend(xs, init, f);
    }
  }

  /** Taking one element out of a sequence lowers its multiset by that element. */
  lemma RemoveAtMultiset<T>(ys: seq<T>, i: nat)
    requires i < |ys|
    ensures multiset(ys[..i] + ys[i + 1..]) + multiset{ys[i]} == multiset(ys)
  {
    assert ys == ys[..i] + [ys[i]] + ys[i + 1..];
    calc {
      multiset(ys);
      multiset(ys[..i] + [ys[i]] + ys[i + 1..]);
      multiset(ys[..i]) + multiset([ys[i]]) + multiset(ys[i + 1..]);
      multiset(ys[..i]) + multiset(ys[i + 1..]) + multiset{ys[i]};
      multiset(ys[..i] + ys[i + 1..]) + multiset{ys[i]};
    }
  }

  lemma SplitAround<T>(ys: seq<T>, i: nat)
    requires i < |ys|
    ensures ys == ys[..i] + [ys[i]] + ys[i + 1..]
  {
  }

  lemma SumRemoveAt<T>(ys: seq<T>, i: nat, f: T -> int)
    requires i < |ys|
    ensures Sum(ys, f) == Sum(ys[..i] + ys[i + 1..], f) + f(ys[i])
  {
    SplitAround(ys, i);
    SumMiddle(ys[..i], ys[i], ys[i + 1..], f);
  }

  lemma SumMiddle<T>(a: seq<T>, x: T, b: seq<T>, f: T -> int)
    ensures Sum(a + [x] + b, f) == Sum(a + b, f) + f(x)
  {
    SumAppend(a + [x], b, f);
    assert (a + [x])[..|a|] == a;
    SumAppend(a, b, f);
  }


  lemma SumRealRemoveAt<T>(ys: seq<T>, i: nat, f: T -> real)
    requires i < |ys|
    ensures SumReal(ys, f) == SumReal(ys[..i] + ys[i + 1..], f) + f(ys[i])
  {
    SplitAround(ys, i);
    SumRealMiddle(ys[..i], ys[i], ys[i + 1..], f);
  }

  lemma SumRealMiddle<T>(a: seq<T>, x: T, b: seq<T>, f: T -> real)
    ensures SumReal(a + [x] + b, f) == SumReal(a + b, f) + f(x)
  {
    SumRealAppend(a + [x], b, f);
    assert (a + [x])[..|a|] == a;
    SumRealAppend(a, b, f);
  }


  /** A sum does not depend on the order of its elements. */
  lemma {:induction false} SumPermutation<T>(xs: seq<T>, ys: seq<T>, f: T -> int)
    requires multiset(xs) == multiset(ys)
    ensures Sum(xs, f) == Sum(ys, f)
    decreases |xs|
  {
    if xs == [] {
      assert |ys| == |multiset(ys)| == 0;
    } else {
      var n := |xs| - 1;
      assert xs == xs[..n] + [xs[n]];
      assert multiset(xs) == multiset(xs[..n]) + multiset{xs[n]};
      assert xs[n] in multiset(ys);
      var i :| 0 <= i < |ys| && ys[i] == xs[n];
      RemoveAtMultiset(ys, i);
      assert multiset(xs[..n]) == multiset(xs) - multiset{xs[n]};
      assert multiset(ys[..i] + ys[i + 1..]) == multiset(ys) - multiset{ys[i]};
      SumPermutation(xs[..n], ys[..i] + ys[i + 1..], f);
      SumRemoveAt(ys, i, f);
    }
  }

  lemma {:induction false} SumRealPermutation<T>(xs: seq<T>, ys: seq<T>, f: T -> real)
    requires multiset(xs) == multiset(ys)
    ensures SumReal(xs, f) == SumReal(ys, f)
    decreases |xs|
  {
    if xs == [] {
      assert |ys| == |multiset(ys)| == 0;
    } else {
      var n := |xs| - 1;
      assert xs == xs[..n] + [xs[n]];
      assert multiset(xs) == multiset(xs[..n]) + multiset{xs[n]};
      assert xs[n] in multiset(ys);
      var i :| 0 <= i < |ys| && ys[i] == xs[n];
      RemoveAtMultiset(ys, i);
      assert multiset(xs[..n]) == multiset(xs) - multiset{xs[n]};
      assert multiset(ys[..i] + ys[i + 1..]) == multiset(ys) - multiset{ys[i]};
      SumRealPermutation(xs[..n], ys[..i] + ys[i + 1..], f);
      SumRealRemoveAt(ys, i, f);
    }
  }

  lemma {:induction false} SumRealNonNegative<T>(xs: seq<T>, f: T -> real)
    requires forall i :: 0 <= i < |xs| ==> f(xs[i]) >= 0.0
    ensures SumReal(xs, f) >= 0.0
    decreases |xs|
  {
    if xs != [] {
      SumRealNonNegative(xs[..|xs| - 1], f);
    }
  }

  /** Replacing one element changes the sum by exactly the difference. */
  lemma {:induction false} SumUpdate<T>(xs: seq<T>, j: nat, v: T, f: T -> int)
    requires j < |xs|
    ensures Sum(xs[j := v], f) == Sum(xs, f) - f(xs[j]) + f(v)
  {
    var ys := xs[j := v];
    assert xs == xs[..j] + [xs[j]] + xs[j + 1..];
    assert ys == xs[..j] + [v] + xs[j + 1..];
    SumAppend(xs[..j] + [xs[j]], xs[j + 1..], f);
    SumAppend(xs[..j], [xs[j]], f);
    SumAppend(xs[..j] + [v], xs[j + 1..], f);
    SumAppend(xs[..j], [v], f);
    assert Sum([v], f) == f(v) by { assert [v][..0] == []; }
    assert Sum([xs[j]], f) == f(xs[j]) by { assert [xs[j]][..0] == []; }
  }

  lemma {:induction false} SumRealUpdate<T>(xs: seq<T>, j: nat, v: T, f: T -> real)
    requires j < |xs|
    ensures SumReal(xs[j := v], f) == SumReal(xs, f) - f(xs[j]) + f(v)
  {
    var ys := xs[j := v];
    assert xs == xs[..j] + [xs[j]] + xs[j + 1..];
    assert ys == xs[..j] + [v] + xs[j + 1..];
    SumRealAppend(xs[..j] + [xs[j]], xs[j + 1..], f);
    SumRealAppend(xs[..j], [xs[j]], f);
    SumRealAppend(xs[..j] + [v], xs[j + 1..], f);
    SumRealAppend(xs[..j], [v], f);
    assert SumReal([v], f) == f(v) by { assert [v][..0] == []; }
    assert SumReal([xs[j]], f) == f(xs[j]) by { assert [xs[j]][..0] == []; }
  }

  /** `xs.filter(p)`: the elements satisfying `p`, in their original order. */
  function Filter<T(!new)>(xs: seq<T>, p: T -> bool): (r: seq<T>)
    ensures |r| <= |xs|
    ensures forall x :: x in r <==> x in xs && p(x)
  {
    if xs == [] then []
    else
      var rest := Filter(xs[..|xs| - 1], p);
      assert forall x :: x in xs <==> x in xs[..|xs| - 1] || x == xs[|xs| - 1] by {
        assert xs == xs[..|xs| - 1] + [xs[|xs| - 1]];
      }
      if p(xs[|xs| - 1]) then rest + [xs[|xs| - 1]] else rest
  }
}

=== FILE: grant_exit.dfy ===
/**
 * The "Grant Exit" form: holders leave the company, and the shares they held
 * are issued to other holders.  The form may only be sent when what is issued
 * matches exactly what the exiting holders gave up.
 */
module GrantExit {
  import opened Wrappers
  import opened Folds
  import opened Lookup
  import opened Ledger

  /** A holder leaving the company. */
  datatype ExitRow = ExitRow(stakeholderId: string, notes: Option<string>)

  /** The values of the whole form; an issue row has the shape of a dilution
      row (a holder and a number of shares) but hands shares out. */
  datatype ExitForm = ExitForm(
    name: string,
    date: string,
    exits: seq<ExitRow>,
    issues: seq<Dilution>)

  /** What the schema accepts (the date is only checked to parse, which is not
      modelled). */
  predicate ValidForm(f: ExitForm)
  {
    |f.name| > 0 &&
    (forall k :: 0 <= k < |f.exits| ==> |f.exits[k].stakeholderId| > 0) &&
    (forall j :: 0 <= j < |f.issues| ==> ValidDilution(f.issues[j]))
  }

  function StakeholderKey(sh: StakeholderSummary): string
  {
    sh.id
  }

  /** `stakeholderMap`: the stakeholders by id; for a repeated id the later
      entry wins. */
  method StakeholderMap(shs: seq<StakeholderSummary>) returns (m: map<string, StakeholderSummary>)
    ensures forall id :: id in m <==> exists k :: 0 <= k < |shs| && shs[k].id == id
    ensures forall id :: id in m ==>
      m[id].id == id &&
      exists k :: 0 <= k < |shs| && shs[k] == m[id] && forall k' :: k < k' < |shs| ==> shs[k'].id != id
  {
    m := IndexBy(shs, StakeholderKey);
    forall id ensures LastWithKey(shs, StakeholderKey, id).None? <==> forall k :: 0 <= k < |shs| ==> shs[k].id != id {
      LastWithKeyIsLast(shs, StakeholderKey, id);
    }
    forall id | id in m
      ensures m[id].id == id &&
        exists k :: 0 <= k < |shs| && shs[k] == m[id] && forall k' :: k < k' < |shs| ==> shs[k'].id != id
    {
      LastWithKeyIsLast(shs, StakeholderKey, id);
    }
  }

  /** `Number(stakeholderMap[exit.stakeholderId]?.totalShares ?? 0)`: the
      shares an exiting holder gives up, 0 for an unknown id. */
  function ExitingShares(m: map<string, StakeholderSummary>, e: ExitRow): int
  {
    if e.stakeholderId in m then m[e.stakeholderId].totalShares else 0
  }

  function HoldingIn(m: map<string, StakeholderSummary>): ExitRow -> int
  {
    (e: ExitRow) => ExitingShares(m, e)
  }

  /** Everything the exiting holders give up. */
  function ExitedShares(m: map<string, StakeholderSummary>, exits: seq<ExitRow>): int
  {
    Sum(exits, HoldingIn(m))
  }

  /** The balance after the exits and issues, as both `onSubmit` and the
      metrics panel compute it. */
  function Balance(info: Option<BusinessInfo>, m: map<string, StakeholderSummary>, f: ExitForm): int
  {
    BalanceBefore(info) + ExitedShares(m, f.exits) - DilutedShares(f.issues)
  }

  /** `form.handleSubmit(onSubmit)`: sent exactly when the schema accepts the
      form and the issued shares equal the prior balance plus the exited
      holdings. */
  function Submit(info: Option<BusinessInfo>, m: map<string, StakeholderSummary>, businessId: string, f: ExitForm): (r: Outcome<ExitForm>)
    ensures r.Posted? <==> ValidForm(f) && DilutedShares(f.issues) == BalanceBefore(info) + ExitedShares(m, f.exits)
    ensures r.Posted? ==> r.endpoint == EventEndpoint(businessId, "grant-exit") && r.body == f
    ensures r.Refused? <==> ValidForm(f) && Balance(info, m, f) != 0
    ensures r.Refused? ==> r.toast == "Non-zero Share Balance!"
    ensures !r.Blocked?
  {
    if !ValidForm(f) then Invalid
    else if Balance(info, m, f) == 0 then Posted(EventEndpoint(businessId, "grant-exit"), f)
    else Refused("Non-zero Share Balance!")
  }

  /** The balance does not depend on the order of the exit rows or of the
      issue rows. */
  lemma BalanceIgnoresOrder(info: Option<BusinessInfo>, m: map<string, StakeholderSummary>, f: ExitForm, g: ExitForm)
    requires multiset(f.exits) == multiset(g.exits) && multiset(f.issues) == multiset(g.issues)
    ensures Balance(info, m, f) == Balance(info, m, g)
  {
    SumPermutation(f.exits, g.exits, HoldingIn(m));
    DilutedSharesPermutation(f.issues, g.issues);
  }

  /** An exit row adds the holder's total shares to the balance, or nothing
      for an id the stakeholder list does not know. */
  lemma AddExit(info: Option<BusinessInfo>, m: map<string, StakeholderSummary>, f: ExitForm, e: ExitRow)
    ensures e.stakeholderId in m ==>
      Balance(info, m, f.(exits := f.exits + [e])) == Balance(info, m, f) + m[e.stakeholderId].totalShares
    ensures e.stakeholderId !in m ==> Balance(info, m, f.(exits := f.exits + [e])) == Balance(info, m, f)
  {
    assert (f.exits + [e])[..|f.exits|] == f.exits;
  }

  /** An issue row takes its shares off the balance. */
  lemma AddIssue(info: Option<BusinessInfo>, m: map<string, StakeholderSummary>, f: ExitForm, d: Dilution)
    ensures Balance(info, m, f.(issues := f.issues + [d])) == Balance(info, m, f) - d.shares
  {
    DilutedSharesAppend(f.issues, d);
  }

  /** Starting from a zero balance, exiting one known holder and handing all
      of their shares to one other holder is accepted. */
  lemma ReissueInFullAccepted(info: Option<BusinessInfo>, m: map<string, StakeholderSummary>, businessId: string,
                              name: string, date: string, e: ExitRow, to: string)
    requires BalanceBefore(info) == 0 && e.stakeholderId in m
    requires |name| > 0 && |e.stakeholderId| > 0 && |to| > 0 && m[e.stakeholderId].totalShares >= 0
    ensures Submit(info, m, businessId, ExitForm(name, date, [e], [Dilution(to, m[e.stakeholderId].totalShares)])).Posted?
  {
    var f := ExitForm(name, date, [], []);
    AddExit(info, m, f, e);
    AddIssue(info, m, f.(exits := [e]), Dilution(to, m[e.stakeholderId].totalShares));
  }

  /** The holders exit row `index` may pick: anyone not chosen in another exit row. */
  function ExitCandidates(shs: seq<StakeholderSummary>, f: ExitForm, index: int): (r: seq<StakeholderSummary>)
    ensures forall sh :: sh in r <==>
      sh in shs && forall j :: 0 <= j < |f.exits| && j != index ==> f.exits[j].stakeholderId != sh.id
  {
    NotChosenElsewhere(shs, RowIds(f.exits, (e: ExitRow) => e.stakeholderId), index)
  }

  /** The holders issue row `index` may pick: holders of shares that are not
      chosen in another issue row and are not exiting. */
  function IssueCandidates(shs: seq<StakeholderSummary>, f: ExitForm, index: int): (r: seq<StakeholderSummary>)
    ensures forall sh :: sh in r <==>
      sh in shs && sh.ownershipShares > 0 &&
      (forall j :: 0 <= j < |f.issues| && j != index ==> f.issues[j].stakeholderId != sh.id) &&
      (forall k :: 0 <= k < |f.exits| ==> f.exits[k].stakeholderId != sh.id)
  {
    var exiting := RowIds(f.exits, (e: ExitRow) => e.stakeholderId);
    Filter(NotChosenElsewhere(shs, RowIds(f.issues, (d: Dilution) => d.stakeholderId), index),
      (sh: StakeholderSummary) => sh.id !in exiting && sh.ownershipShares > 0)
  }
}

=== FILE: issue_contract.dfy ===
/**
 * The "Issue Contract" form: a pending contract (a SAFE, a convertible note,
 * a warrant or an option) is turned into shares, taken from the unallocated
 * balance and, optionally, from dilutions of existing holders.  The form is
 * refused when it would issue more shares than are available.
 */
module IssueContract {
  import opened Wrappers
  import opened Folds
  import opened Lookup
  import opened Ledger

  /** A pending contract, as `/api/business/<id>/contracts/PENDING` lists it. */
  datatype ContractRecord = ContractRecord(
    id: string,
    title: string,
    contractType: ContractType,
    shares: int,
    pricePerShare: Option<real>,
    warrantOptionsId: Option<string>)

  datatype IssueRound = IssueRound(name: string, date: string, contractId: string, shares: int)

  /** The values of the whole form. */
  datatype IssueForm = IssueForm(round: IssueRound, dilutions: seq<Dilution>)

  /** What the schema accepts (the date is only checked to parse, which is not
      modelled): a named round, a chosen contract, at least one share. */
  predicate ValidForm(f: IssueForm)
  {
    |f.round.name| > 0 && |f.round.contractId| > 0 && f.round.shares >= 1 &&
    forall j :: 0 <= j < |f.dilutions| ==> ValidDilution(f.dilutions[j])
  }

  /** The unallocated balance after the contract is issued, as `onSubmit` and
      the metrics panel compute it. */
  function Balance(info: Option<BusinessInfo>, f: IssueForm): int
  {
    BalanceBefore(info) - f.round.shares + DilutedShares(f.dilutions)
  }

  /** Pressing "Submit": the shares input carries `max` set to the chosen
      contract's shares, so the browser blocks the submit while more shares
      are entered; otherwise `form.handleSubmit(onSubmit)` runs, and the form
      is refused exactly when the schema accepts it but it would issue more
      shares than the balance plus the dilutions make available. */
  function Submit(info: Option<BusinessInfo>, m: map<string, ContractRecord>, businessId: string, f: IssueForm): (r: Outcome<IssueForm>)
    ensures r.Blocked? <==> f.round.shares > MaxShares(m, f.round.contractId)
    ensures r.Posted? <==>
      f.round.shares <= MaxShares(m, f.round.contractId) && ValidForm(f) &&
      f.round.shares <= BalanceBefore(info) + DilutedShares(f.dilutions)
    ensures r.Posted? ==> f.round.contractId in m && 1 <= f.round.shares <= m[f.round.contractId].shares
    ensures r.Posted? ==> r.endpoint == EventEndpoint(businessId, "issue-contract") && r.body == f
    ensures r.Refused? <==> f.round.shares <= MaxShares(m, f.round.contractId) && ValidForm(f) && Balance(info, f) < 0
    ensures r.Refused? ==> r.toast == "Shares allocated exceed available shares!"
  {
    if f.round.shares > MaxShares(m, f.round.contractId) then Blocked
    else if !ValidForm(f) then Invalid
    else if Balance(info, f) < 0 then Refused("Shares allocated exceed available shares!")
    else Posted(EventEndpoint(businessId, "issue-contract"), f)
  }

  /** Issuing fewer shares (still at least one) never turns an accepted form
      into a refused or blocked one. */
  lemma FewerSharesStillAccepted(info: Option<BusinessInfo>, m: map<string, ContractRecord>, businessId: string, f: IssueForm, n: int)
    requires Submit(info, m, businessId, f).Posted? && 1 <= n <= f.round.shares
    ensures Submit(info, m, businessId, f.(round := f.round.(shares := n))).Posted?
  {
    var g := f.(round := f.round.(shares := n));
    assert forall j :: 0 <= j < |g.dilutions| ==> ValidDilution(g.dilutions[j]);
  }

  /** Adding a dilution row makes its shares available. */
  lemma AddDilution(info: Option<BusinessInfo>, f: IssueForm, d: Dilution)
    ensures Balance(info, f.(dilutions := f.dilutions + [d])) == Balance(info, f) + d.shares
  {
    DilutedSharesAppend(f.dilutions, d);
  }

  /** The balance does not depend on the order of the dilution rows. */
  lemma BalanceIgnoresOrder(info: Option<BusinessInfo>, f: IssueForm, g: IssueForm)
    requires f.round == g.round && multiset(f.dilutions) == multiset(g.dilutions)
    ensures Balance(info, f) == Balance(info, g)
  {
    DilutedSharesPermutation(f.dilutions, g.dilutions);
  }

  function ContractKey(c: ContractRecord): string
  {
    c.id
  }

  /** `contractMap`: the pending contracts by id; for a repeated id the later
      entry wins. */
  method ContractMap(cs: seq<ContractRecord>) returns (m: map<string, ContractRecord>)
    ensures forall id :: id in m <==> exists k :: 0 <= k < |cs| && cs[k].id == id
    ensures forall id :: id in m ==>
      m[id].id == id &&
      exists k :: 0 <= k < |cs| && cs[k] == m[id] && forall k' :: k < k' < |cs| ==> cs[k'].id != id
  {
    m := IndexBy(cs, ContractKey);
    forall id ensures LastWithKey(cs, ContractKey, id).None? <==> forall k :: 0 <= k < |cs| ==> cs[k].id != id {
      LastWithKeyIsLast(cs, ContractKey, id);
    }
    forall id | id in m
      ensures m[id].id == id &&
        exists k :: 0 <= k < |cs| && cs[k] == m[id] && forall k' :: k < k' < |cs| ==> cs[k'].id != id
    {
      LastWithKeyIsLast(cs, ContractKey, id);
    }
  }

  /** The "Max" the shares field shows: the chosen contract's shares, 0 when
      nothing (or an unknown id) is chosen. */
  function MaxShares(m: map<string, ContractRecord>, contractId: string): int
  {
    if contractId in m then m[contractId].shares else 0
  }

  /** The "Event Type" shown: the chosen contract's type, NONE when nothing
      (or an unknown id) is chosen. */
  function EventType(m: map<string, ContractRecord>, contractId: string): (r: ContractType)
    ensures contractId in m ==> r == m[contractId].contractType
    ensures contractId !in m ==> r == ContractType.NONE
  {
    if contractId in m then m[contractId].contractType else ContractType.NONE
  }

  /** The per-share price shown: for a contract linked to a warrants-and-options
      record (`warrantOptionsId` set) that contract's own price, otherwise the
      current valuation spread over all shares.  None stands for
      the non-finite result of dividing by zero shares. */
  function PricePerShare(info: Option<BusinessInfo>, m: map<string, ContractRecord>, contractId: string): (r: Option<real>)
    ensures contractId in m && m[contractId].warrantOptionsId.Some? ==>
      r == Some(m[contractId].pricePerShare.GetOr(0.0))
    ensures !(contractId in m && m[contractId].warrantOptionsId.Some?) ==>
      (r.None? <==> TotalBefore(info) == 0) &&
      (r.Some? ==> r.value * (TotalBefore(info) as real) == PostMoneyBefore(info))
  {
    if contractId in m && m[contractId].warrantOptionsId.Some? then Some(m[contractId].pricePerShare.GetOr(0.0))
    else if TotalBefore(info) == 0 then None
    else Some(PostMoneyBefore(info) / TotalBefore(info) as real)
  }

  /** The holders dilution row `index` may pick: holders with stakes not
      chosen in another dilution row. */
  function DilutionCandidates(shs: seq<StakeholderSummary>, f: IssueForm, index: int): (r: seq<StakeholderSummary>)
    ensures forall sh :: sh in r <==>
      sh in shs && sh.hasStakes &&
      forall j :: 0 <= j < |f.dilutions| && j != index ==> f.dilutions[j].stakeholderId != sh.id
  {
    Filter(NotChosenElsewhere(shs, RowIds(f.dilutions, (d: Dilution) => d.stakeholderId), index), (sh: StakeholderSummary) => sh.hasStakes)
  }
}

=== FILE: ledger.dfy ===
/**
 * What the corporate-action forms share: the latest business snapshot they
 * read, the stakeholder list offered in their pickers, dilution rows, and the
 * four things a submit can end in.
 */
module Ledger {
  import opened Wrappers
  import opened Folds

  /** The latest business snapshot, as `/api/business/<id>/info` returns it. */
  datatype BusinessInfo = BusinessInfo(
    balanceShares: int,
    totalShares: int,
    preMoneyValuation: real,
    postMoneyValuation: real)

  /** `Number(businessInfo?.balanceShares ?? 0)`: no snapshot reads as 0. */
  function BalanceBefore(info: Option<BusinessInfo>): int
  {
    if info.Some? then info.value.balanceShares else 0
  }

  /** `Number(businessInfo?.totalShares ?? 0)`. */
  function TotalBefore(info: Option<BusinessInfo>): int
  {
    if info.Some? then info.value.totalShares else 0
  }

  /** `Number(businessInfo?.postMoneyValuation ?? 0)`. */
  function PostMoneyBefore(info: Option<BusinessInfo>): real
  {
    if info.Some? then info.value.postMoneyValuation else 0.0
  }

  /** `Number(businessInfo?.preMoneyValuation ?? 0)`. */
  function PreMoneyBefore(info: Option<BusinessInfo>): real
  {
    if info.Some? then info.value.preMoneyValuation else 0.0
  }

  /** The kinds of cap-table event the forms create or mention (the schemas
      only check membership in this type). */
  datatype RoundType =
    | BOOTSTRAP | SEED | SERIES_A | SERIES_B | SERIES_C | SERIES_N | BRIDGE | IPO
    | CROWDFUNDING | VENTURE_DEBT | NEW_SHARES | STOCK_SPLIT | WARRANT | OPTION
    | CONVERTIBLE_NOTE | SAFE | EXIT

  /** The name a round type has as a string value. */
  function RoundTypeName(t: RoundType): string
  {
    match t
    case BOOTSTRAP => "BOOTSTRAP"
    case SEED => "SEED"
    case SERIES_A => "SERIES_A"
    case SERIES_B => "SERIES_B"
    case SERIES_C => "SERIES_C"
    case SERIES_N => "SERIES_N"
    case BRIDGE => "BRIDGE"
    case IPO => "IPO"
    case CROWDFUNDING => "CROWDFUNDING"
    case VENTURE_DEBT => "VENTURE_DEBT"
    case NEW_SHARES => "NEW_SHARES"
    case STOCK_SPLIT => "STOCK_SPLIT"
    case WARRANT => "WARRANT"
    case OPTION => "OPTION"
    case CONVERTIBLE_NOTE => "CONVERTIBLE_NOTE"
    case SAFE => "SAFE"
    case EXIT => "EXIT"
  }

  /** The contract instruments; NONE is a plain priced share purchase. */
  datatype ContractType = NONE | SAFE | CONVERTIBLE_NOTE | WARRANT | OPTION

  /** One row of `/api/business/<id>/stakeholders/min`, with the fields the
      forms read from it. */
  datatype StakeholderSummary = StakeholderSummary(
    id: string,
    name: string,
    ownershipShares: int,
    totalShares: int,
    hasStakes: bool)

  /** A row taking shares away from an existing holder. */
  datatype Dilution = Dilution(stakeholderId: string, shares: int)

  function DilutionShareCount(d: Dilution): int
  {
    d.shares
  }

  /** `dilutions.reduce((acc, x) => acc + Number(x.shares), 0)`. */
  function DilutedShares(ds: seq<Dilution>): int
  {
    Sum(ds, DilutionShareCount)
  }

  /** The schema of a dilution row: a chosen holder and at least zero shares. */
  predicate ValidDilution(d: Dilution)
  {
    |d.stakeholderId| > 0 && d.shares >= 0
  }

  /** Adding a dilution row raises the diluted total by exactly its shares. */
  lemma DilutedSharesAppend(ds: seq<Dilution>, d: Dilution)
    ensures DilutedShares(ds + [d]) == DilutedShares(ds) + d.shares
  {
    assert (ds + [d])[..|ds|] == ds;
  }

  /** The diluted total does not depend on the order of the rows. */
  lemma DilutedSharesPermutation(ds: seq<Dilution>, es: seq<Dilution>)
    requires multiset(ds) == multiset(es)
    ensures DilutedShares(ds) == DilutedShares(es)
  {
    SumPermutation(ds, es, DilutionShareCount);
  }

  /** What pressing the submit button ends in: the browser's own constraint
      check on an input stops the submit event (nothing of the form's code
      runs), the schema rejects the form (`onSubmit` is not called),
      `onSubmit` refuses it with an error toast, or the mutation POSTs the
      form values to an endpoint. */
  datatype Outcome<P> = Blocked | Invalid | Refused(toast: string) | Posted(endpoint: string, body: P)

  /** `/api/business/${businessId}/events/<action>`. */
  function EventEndpoint(businessId: string, action: string): string
  {
    "/api/business/" + businessId + "/events/" + action
  }

  /** `rows.map(r => r.stakeholderId)`: the holder chosen in each row of a
      list, in row order, where `id` reads a row's holder. */
  function RowIds<T>(rows: seq<T>, id: T -> string): (r: seq<string>)
    ensures |r| == |rows| && forall j :: 0 <= j < |rows| ==> r[j] == id(rows[j])
  {
    seq(|rows|, j requires 0 <= j < |rows| => id(rows[j]))
  }

  /** `rows.filter((_, y) => index !== y).map(r => r.stakeholderId)`: the ids
      chosen in every row except row `index`. */
  function OtherRowIds(ids: seq<string>, index: int): (r: seq<string>)
    ensures forall id :: id in r <==> exists j :: 0 <= j < |ids| && j != index && ids[j] == id
  {
    if ids == [] then []
    else
      var n := |ids| - 1;
      var rest := OtherRowIds(ids[..n], index);
      assert forall j :: 0 <= j < n ==> ids[..n][j] == ids[j];
      rest + (if n == index then [] else [ids[n]])
  }

  /** The stakeholders a picker in row `index` offers before any further
      filter: those not already chosen in another row. */
  function NotChosenElsewhere(shs: seq<StakeholderSummary>, ids: seq<string>, index: int): (r: seq<StakeholderSummary>)
    ensures forall sh :: sh in r <==>
      sh in shs && forall j :: 0 <= j < |ids| && j != index ==> ids[j] != sh.id
  {
    var others := OtherRowIds(ids, index);
    Filter(shs, (sh: StakeholderSummary) => sh.id !in others)
  }
}

=== FILE: lookup.dfy ===
/**
 * Dictionaries filled from a list by `list.forEach(x => dict[key(x)] = x)`:
 * a later element overwrites an earlier one with the same key.
 */
module Lookup {
  import opened Wrappers

  /** The last element of `xs` whose key is `k`, if any. */
  function LastWithKey<T>(xs: seq<T>, key: T -> string, k: string): Option<T>
  {
    if xs == [] then None
    else if key(xs[|xs| - 1]) == k then Some(xs[|xs| - 1])
    else LastWithKey(xs[..|xs| - 1], key, k)
  }

  /** `LastWithKey` finds an element with that key after which no element has
      it, and finds nothing exactly when no element has the key. */
  lemma {:induction false} LastWithKeyIsLast<T>(xs: seq<T>, key: T -> string, k: string)
    ensures LastWithKey(xs, key, k).None? <==> forall i :: 0 <= i < |xs| ==> key(xs[i]) != k
    ensures LastWithKey(xs, key, k).Some? ==>
      exists i :: 0 <= i < |xs| && xs[i] == LastWithKey(xs, key, k).value && key(xs[i]) == k &&
        forall j :: i < j < |xs| ==> key(xs[j]) != k
  {
    if xs != [] {
      var n := |xs| - 1;
      LastWithKeyIsLast(xs[..n], key, k);
      if key(xs[n]) != k {
        assert forall i :: 0 <= i < n ==> xs[..n][i] == xs[i];
        if LastWithKey(xs, key, k).Some? {
          var i :| 0 <= i < n && xs[..n][i] == LastWithKey(xs, key, k).value && key(xs[..n][i]) == k &&
            forall j :: i < j < n ==> key(xs[..n][j]) != k;
          assert xs[i] == LastWithKey(xs, key, k).value;
        }
      }
    }
  }

  /** An element with key `k` after which no element has that key is the one
      `LastWithKey` finds. */
  lemma {:induction false} LastWithKeyAt<T>(xs: seq<T>, key: T -> string, k: string, i: nat)
    requires i < |xs| && key(xs[i]) == k
    requires forall j :: i < j < |xs| ==> key(xs[j]) != k
    ensures LastWithKey(xs, key, k) == Some(xs[i])
  {
    var n := |xs| - 1;
    if i < n {
      assert xs[..n][i] == xs[i];
      LastWithKeyAt(xs[..n], key, k, i);
    }
  }

  /** Fills a dictionary from `xs`, one element at a time, keyed by `key`. */
  method IndexBy<T>(xs: seq<T>, key: T -> string) returns (m: map<string, T>)
    ensures forall k :: k in m <==> LastWithKey(xs, key, k).Some?
    ensures forall k :: k in m ==> LastWithKey(xs, key, k) == Some(m[k])
  {
    m := map[];
    var i := 0;
    while i < |xs|
      invariant 0 <= i <= |xs|
      invariant forall k :: k in m <==> LastWithKey(xs[..i], key, k).Some?
      invariant forall k :: k in m ==> LastWithKey(xs[..i], key, k) == Some(m[k])
    {
      assert xs[..i + 1][..i] == xs[..i];
      m := m[key(xs[i]) := xs[i]];
      i := i + 1;
    }
    assert xs[..i] == xs;
  }
}

=== FILE: message_templates.dfy ===
/**
 * `buildSystemPrompt`, the system prompt written for the AI assistant: a
 * fixed opening sentence, followed by today's date and the current time when
 * the user's first message asks about them.  The chat route does not call it
 * (the call is commented out); the function is modelled as written.
 */
module MessageTemplates {
  import opened Wrappers
  import opened Strings

  /** A chat message; its content may be missing. */
  datatype Message = Message(role: string, content: Option<string>)

  /** `messages.find(msg => msg.role === 'user')`. */
  function FirstUser(ms: seq<Message>): (r: Option<Message>)
    ensures r.Some? ==> r.value in ms && r.value.role == "user"
    ensures r.None? <==> forall k :: 0 <= k < |ms| ==> ms[k].role != "user"
  {
    if ms == [] then None
    else if ms[0].role == "user" then Some(ms[0])
    else FirstUser(ms[1..])
  }

  /** The lower-cased content of the first user message, or "" when there is
      no such message or it has no content. */
  function UserPrompt(ms: seq<Message>): string
  {
    match FirstUser(ms)
    case None => ""
    case Some(m) => if m.content.Some? then Lower(m.content.value) else ""
  }

  const Base: string := "You are a helpful assistant. Today is May 9th, 2025."

  function DateSentence(today: string): string
  {
    " Today's date is " + today + "."
  }

  function TimeSentence(time: string): string
  {
    " The current time is " + time + "."
  }

  /** The prompt `buildSystemPrompt` returns, where `today` and `time` are what
      the clock helpers report at the moment of the call. */
  function SystemPrompt(ms: seq<Message>, today: string, time: string): (r: string)
    ensures Base <= r
  {
    var p := UserPrompt(ms);
    var withDate := Base + (if Contains(p, "date") then DateSentence(today) else "");
    var r := withDate + (if Contains(p, "time") then TimeSentence(time) else "");
    assert r[..|Base|] == Base by {
      assert r[..|withDate|] == withDate;
      assert withDate[..|Base|] == Base;
    }
    r
  }

  /** `buildSystemPrompt`: starts from the opening sentence and appends the
      date and the time sentences in that order. */
  method BuildSystemPrompt(messages: seq<Message>, today: string, time: string) returns (context: string)
    ensures context == SystemPrompt(messages, today, time)
  {
    var userPrompt := UserPrompt(messages);
    context := Base;
    if Contains(userPrompt, "date") {
      context := context + DateSentence(today);
    }
    if Contains(userPrompt, "time") {
      context := context + TimeSentence(time);
    }
  }

  /** The first user message is the one after any number of messages from
      other roles, whatever follows it. */
  lemma {:induction false} FirstUserIsFirst(pre: seq<Message>, x: Message, rest: seq<Message>)
    requires x.role == "user"
    requires forall k :: 0 <= k < |pre| ==> pre[k].role != "user"
    ensures FirstUser(pre + [x] + rest) == Some(x)
  {
    if pre == [] {
      assert pre + [x] + rest == [x] + rest;
    } else {
      FirstUserIsFirst(pre[1..], x, rest);
      assert (pre + [x] + rest)[1..] == pre[1..] + [x] + rest;
    }
  }

  /** Without a user message the prompt is exactly the opening sentence. */
  lemma NoUserMessageGivesBase(ms: seq<Message>, today: string, time: string)
    requires forall k :: 0 <= k < |ms| ==> ms[k].role != "user"
    ensures SystemPrompt(ms, today, time) == Base
  {
    assert UserPrompt(ms) == "";
    assert !Contains("", "date") && !Contains("", "time");
  }

  /** Messages after the first user message have no influence. */
  lemma LaterMessagesIgnored(pre: seq<Message>, x: Message, rest1: seq<Message>, rest2: seq<Message>, today: string, time: string)
    requires x.role == "user"
    requires forall k :: 0 <= k < |pre| ==> pre[k].role != "user"
    ensures SystemPrompt(pre + [x] + rest1, today, time) == SystemPrompt(pre + [x] + rest2, today, time)
  {
    FirstUserIsFirst(pre, x, rest1);
    FirstUserIsFirst(pre, x, rest2);
  }

  /** Upper-casing the first user message changes nothing: "DATE" asks for
      the date just as "date" does. */
  lemma PromptIgnoresCase(pre: seq<Message>, c: string, rest: seq<Message>, today: string, time: string)
    requires forall k :: 0 <= k < |pre| ==> pre[k].role != "user"
    ensures SystemPrompt(pre + [Message("user", Some(Upper(c)))] + rest, today, time) ==
            SystemPrompt(pre + [Message("user", Some(c))] + rest, today, time)
  {
    FirstUserIsFirst(pre, Message("user", Some(Upper(c))), rest);
    FirstUserIsFirst(pre, Message("user", Some(c)), rest);
    LowerOfUpper(c);
  }

  /** Asking "What TIME is it?" adds the time and not the date. */
  lemma TimeQuestion(today: string, time: string)
    ensures SystemPrompt([Message("user", Some("What TIME is it?"))], today, time) == Base + TimeSentence(time)
  {
    var ms := [Message("user", Some("What TIME is it?"))];
    FirstUserIsFirst([], ms[0], []);
    assert [] + [ms[0]] + [] == ms;
    LowerTimeQuestion();
    TimeQuestionMentions();
    OnlyTime(ms, today, time);
  }

  lemma OnlyTime(ms: seq<Message>, today: string, time: string)
    requires Contains(UserPrompt(ms), "time") && !Contains(UserPrompt(ms), "date")
    ensures SystemPrompt(ms, today, time) == Base + TimeSentence(time)
  {
  }

  lemma LowerTimeQuestion()
    ensures Lower("What TIME is it?") == "what time is it?"
  {
    LowerIs("What TIME is it?", "what time is it?");
  }

  lemma LowerIs(s: string, r: string)
    requires |s| == |r| && forall k :: 0 <= k < |s| ==> r[k] == LowerChar(s[k])
    ensures Lower(s) == r
  {
  }

  lemma TimeQuestionMentions()
    ensures Contains("what time is it?", "time") && !Contains("what time is it?", "date")
  {
    var p := "what time is it?";
    assert p == "what " + "time" + " is it?";
    ContainsWithin("what ", "time", " is it?");
    MissingFirstChar(p, "date");
  }
}

=== FILE: navigator.dfy ===
/**
 * The breadcrumb shown above every page of a business: up to two crumbs
 * derived from the path segments after `/business/<id>/`.
 */
module Navigator {
  import opened Wrappers
  import opened Strings

  datatype Crumb = Crumb(title: string, link: string)

  /** `pathname.split('/').slice(3)`: the segments after `/business/<id>`. */
  function RestPath(pathname: string): seq<string>
  {
    var parts := Split(pathname, '/');
    if |parts| <= 3 then [] else parts[3..]
  }

  /** The pathname of the page with segments `segs` under business `id`. */
  function BusinessPath(id: string, segs: seq<string>): string
  {
    Join(["", "business", id] + segs, '/')
  }

  /** Reading the segments back out of a business page's pathname. */
  lemma RestPathOfBusinessPath(id: string, segs: seq<string>)
    requires '/' !in id && forall k :: 0 <= k < |segs| ==> '/' !in segs[k]
    ensures RestPath(BusinessPath(id, segs)) == segs
  {
    var parts := ["", "business", id] + segs;
    assert forall k :: 0 <= k < |parts| ==> '/' !in parts[k] by {
      forall k | 0 <= k < |parts| ensures '/' !in parts[k] {
        if k >= 3 { assert parts[k] == segs[k - 3]; }
      }
    }
    SplitJoin(parts, '/');
    assert parts[3..] == segs;
  }

  function BusinessLink(id: string, suffix: string): string
  {
    "/business/" + id + suffix
  }

  /** The crumb for the first segment. */
  function FirstCrumb(id: string, seg: string): Option<Crumb>
  {
    if seg == "dashboards" then Some(Crumb("Dashboards", BusinessLink(id, "/dashboards/overview")))
    else if seg == "events" then Some(Crumb("Events", BusinessLink(id, "/events")))
    else if seg == "stakeholders" then Some(Crumb("Stakeholders", BusinessLink(id, "/stakeholders")))
    else if seg == "magic" then Some(Crumb("Magic", BusinessLink(id, "/magic/future")))
    else None
  }

  /** The crumb for the second segment, which depends on the first. */
  function SecondCrumb(id: string, first: string, seg: string): Option<Crumb>
  {
    if first == "dashboards" && seg == "overview" then Some(Crumb("Overview", BusinessLink(id, "/dashboards/overview")))
    else if first == "events" && seg == "create" then Some(Crumb("Create", BusinessLink(id, "/events/create")))
    else None
  }

  /** What the loop body pushes for segment `index`. */
  function CrumbAt(id: string, rest: seq<string>, index: nat): Option<Crumb>
    requires index < |rest|
  {
    if index == 0 then FirstCrumb(id, rest[0])
    else if index == 1 then SecondCrumb(id, rest[0], rest[1])
    else None
  }

  function OptionToSeq(c: Option<Crumb>): seq<Crumb>
  {
    if c.Some? then [c.value] else []
  }

  /** The crumbs pushed for the first `n` segments. */
  function CrumbsUpTo(id: string, rest: seq<string>, n: nat): seq<Crumb>
    requires n <= |rest|
  {
    if n == 0 then [] else CrumbsUpTo(id, rest, n - 1) + OptionToSeq(CrumbAt(id, rest, n - 1))
  }

  /** The crumbs for a whole path. */
  function Crumbs(id: string, rest: seq<string>): seq<Crumb>
  {
    CrumbsUpTo(id, rest, |rest|)
  }

  /** The component's loop: `restPath.forEach` pushing one crumb per
      recognised segment. */
  method PathList(pathname: string, businessId: string) returns (pathList: seq<Crumb>)
    ensures pathList == Crumbs(businessId, RestPath(pathname))
    ensures |pathList| <= 2
  {
    var restPath := RestPath(pathname);
    pathList := [];
    var index := 0;
    while index < |restPath|
      invariant 0 <= index <= |restPath|
      invariant pathList == CrumbsUpTo(businessId, restPath, index)
    {
      var path := restPath[index];
      if index == 0 {
        if path == "dashboards" {
          pathList := pathList + [Crumb("Dashboards", BusinessLink(businessId, "/dashboards/overview"))];
        } else if path == "events" {
          pathList := pathList + [Crumb("Events", BusinessLink(businessId, "/events"))];
        } else if path == "stakeholders" {
          pathList := pathList + [Crumb("Stakeholders", BusinessLink(businessId, "/stakeholders"))];
        } else if path == "magic" {
          pathList := pathList + [Crumb("Magic", BusinessLink(businessId, "/magic/future"))];
        }
      } else if index == 1 {
        if restPath[0] == "dashboards" && path == "overview" {
          pathList := pathList + [Crumb("Overview", BusinessLink(businessId, "/dashboards/overview"))];
        } else if restPath[0] == "events" && path == "create" {
          pathList := pathList + [Crumb("Create", BusinessLink(businessId, "/events/create"))];
        }
      }
      index := index + 1;
    }
    CrumbsShape(businessId, restPath);
  }

  /** Segments past the second never add a crumb. */
  lemma {:induction false} LaterSegmentsIgnored(id: string, rest: seq<string>, n: nat)
    requires 2 <= n <= |rest|
    ensures CrumbsUpTo(id, rest, n) == CrumbsUpTo(id, rest, 2)
  {
    if n > 2 {
      LaterSegmentsIgnored(id, rest, n - 1);
    }
  }

  /** There are at most two crumbs; the first exists exactly when the first
      segment is a known section; a second exists only under Dashboards
      (Overview) or Events (Create), and then follows the first. */
  lemma CrumbsShape(id: string, rest: seq<string>)
    ensures |Crumbs(id, rest)| <= 2
    ensures |Crumbs(id, rest)| >= 1 <==> |rest| >= 1 && FirstCrumb(id, rest[0]).Some?
    ensures |Crumbs(id, rest)| >= 1 ==> Crumbs(id, rest)[0] == FirstCrumb(id, rest[0]).value
    ensures |Crumbs(id, rest)| == 2 <==>
      |rest| >= 2 && ((rest[0] == "dashboards" && rest[1] == "overview") || (rest[0] == "events" && rest[1] == "create"))
    ensures |Crumbs(id, rest)| == 2 ==> Crumbs(id, rest)[1] == SecondCrumb(id, rest[0], rest[1]).value
  {
    if |rest| >= 1 {
      assert CrumbsUpTo(id, rest, 1) == OptionToSeq(FirstCrumb(id, rest[0]));
    }
    if |rest| >= 2 {
      LaterSegmentsIgnored(id, rest, |rest|);
      assert Crumbs(id, rest) == OptionToSeq(FirstCrumb(id, rest[0])) + OptionToSeq(SecondCrumb(id, rest[0], rest[1]));
      if SecondCrumb(id, rest[0], rest[1]).Some? {
        assert FirstCrumb(id, rest[0]).Some?;
      }
    }
  }

  /** Every crumb links into the same business. */
  lemma CrumbLinksStayInBusiness(id: string, rest: seq<string>)
    ensures forall k :: 0 <= k < |Crumbs(id, rest)| ==> "/business/" + id + "/" <= Crumbs(id, rest)[k].link
  {
    CrumbsShape(id, rest);
    if |rest| >= 1 {
      LinkPrefix(id, "dashboards/overview");
      LinkPrefix(id, "events");
      LinkPrefix(id, "stakeholders");
      LinkPrefix(id, "magic/future");
      LinkPrefix(id, "events/create");
      assert "/dashboards/overview" == "/" + "dashboards/overview";
      assert "/events" == "/" + "events";
      assert "/stakeholders" == "/" + "stakeholders";
      assert "/magic/future" == "/" + "magic/future";
      assert "/events/create" == "/" + "events/create";
    }
  }

  lemma LinkPrefix(id: string, tail: string)
    ensures "/business/" + id + "/" <= BusinessLink(id, "/" + tail)
  {
    var prefix := "/business/" + id + "/";
    assert BusinessLink(id, "/" + tail) == prefix + tail;
    assert (prefix + tail)[..|prefix|] == prefix;
  }

  /** The breadcrumb as rendered: a link to the first crumb, then the second
      crumb's title when there are exactly two. */
  datatype Breadcrumb = Breadcrumb(link: string, linkTitle: string, page: Option<string>)

  /** The render as written reads `pathList[0]` unconditionally; None is the
      TypeError thrown when there is no first crumb. */
  function RenderAsWritten(pathList: seq<Crumb>): Option<Breadcrumb>
  {
    if |pathList| == 0 then None
    else Some(Breadcrumb(pathList[0].link, pathList[0].title,
      if |pathList| == 2 then Some(pathList[1].title) else None))
  }

  /** The business home page `/business/<id>` has no segment after the id, so
      the breadcrumb in its layout fails to render. */
  lemma BusinessHomeFailsAsWritten(id: string)
    requires '/' !in id
    ensures RenderAsWritten(Crumbs(id, RestPath(BusinessPath(id, [])))) == None
  {
    RestPathOfBusinessPath(id, []);
  }

  /** The render as intended: an empty trail renders no items. */
  function Render(pathList: seq<Crumb>): (items: seq<Breadcrumb>)
    ensures |pathList| == 0 <==> items == []
    ensures RenderAsWritten(pathList).Some? ==> items == [RenderAsWritten(pathList).value]
  {
    if |pathList| == 0 then []
    else [Breadcrumb(pathList[0].link, pathList[0].title, if |pathList| == 2 then Some(pathList[1].title) else None)]
  }

  /** The two pages with a second crumb show it. */
  lemma NestedPagesShowBothCrumbs(id: string)
    requires '/' !in id
    ensures Render(Crumbs(id, RestPath(BusinessPath(id, ["dashboards", "overview"])))) ==
      [Breadcrumb("/business/" + id + "/dashboards/overview", "Dashboards", Some("Overview"))]
    ensures Render(Crumbs(id, RestPath(BusinessPath(id, ["events", "create"])))) ==
      [Breadcrumb("/business/" + id + "/events", "Events", Some("Create"))]
  {
    RestPathOfBusinessPath(id, ["dashboards", "overview"]);
    RestPathOfBusinessPath(id, ["events", "create"]);
    CrumbsShape(id, ["dashboards", "overview"]);
    CrumbsShape(id, ["events", "create"]);
  }
}

=== FILE: raise_a_round.dfy ===
/**
 * The "Raise a Round" form: new investments (each with optional priced or
 * instrument contracts) and dilutions of existing holders.  The form may only
 * be sent when the round leaves the share balance exactly where it was.
 */
module RaiseARound {
  import opened Wrappers
  import opened Folds
  import opened Ledger

  /** One contract attached to an investment. */
  datatype ContractRow = ContractRow(
    title: string,
    description: Option<string>,
    shares: Option<int>,
    pricePerShare: Option<real>,
    contractType: Option<ContractType>,
    investedAmount: Option<real>)

  /** One investor's row. */
  datatype Investment = Investment(
    stakeholderId: string,
    contracts: seq<ContractRow>,
    amount: Option<real>,
    shares: int,
    notes: Option<string>)

  datatype RoundDetails = RoundDetails(
    name: string,
    roundType: RoundType,
    date: string,
    preMoneyValuation: real)

  /** The values of the whole form. */
  datatype RaiseForm = RaiseForm(
    round: RoundDetails,
    investments: seq<Investment>,
    dilutions: seq<Dilution>)

  /** A contract whose shares count against the balance: one without a type,
      or a plain priced purchase (NONE). */
  predicate Counted(c: ContractRow)
  {
    c.contractType.None? || c.contractType == Some(ContractType.NONE)
  }

  // ---------------------------------------------------------------------
  // Schema

  predicate ValidContract(c: ContractRow)
  {
    (c.shares.Some? ==> c.shares.value >= 0) &&
    (c.pricePerShare.Some? ==> c.pricePerShare.value >= 0.0) &&
    (c.investedAmount.Some? ==> c.investedAmount.value >= 0.0)
  }

  predicate ValidInvestment(x: Investment)
  {
    |x.stakeholderId| > 0 && x.shares >= 0 &&
    (x.amount.Some? ==> x.amount.value >= 0.0) &&
    forall c :: c in x.contracts ==> ValidContract(c)
  }

  /** What the form's schema accepts (the date is only checked to parse, which
      is not modelled). */
  predicate ValidForm(f: RaiseForm)
  {
    |f.round.name| > 0 && f.round.preMoneyValuation >= 0.0 &&
    (forall i :: 0 <= i < |f.investments| ==> ValidInvestment(f.investments[i])) &&
    (forall j :: 0 <= j < |f.dilutions| ==> ValidDilution(f.dilutions[j]))
  }

  // ---------------------------------------------------------------------
  // The balance as the submit handler computes it: `Number(y.shares)` of an
  // undefined contract share count is NaN, and NaN poisons the whole sum.

  /** `.reduce((accy, y) => accy + Number(y.shares), 0)`; None is NaN. */
  function NumberSum(cs: seq<ContractRow>): Option<int>
  {
    if cs == [] then Some(0)
    else
      var acc := NumberSum(cs[..|cs| - 1]);
      var y := cs[|cs| - 1].shares;
      if acc.Some? && y.Some? then Some(acc.value + y.value) else None
  }

  /** Counted contract shares of all investments, as the submit handler adds them. */
  function ContractSharesAtSubmit(invs: seq<Investment>): Option<int>
  {
    if invs == [] then Some(0)
    else
      var acc := ContractSharesAtSubmit(invs[..|invs| - 1]);
      var x := NumberSum(Filter(invs[|invs| - 1].contracts, Counted));
      if acc.Some? && x.Some? then Some(acc.value + x.value) else None
  }

  function InvestmentShareCount(x: Investment): int
  {
    x.shares
  }

  function InvestedShares(invs: seq<Investment>): int
  {
    Sum(invs, InvestmentShareCount)
  }

  /** The balance left after the round, as `onSubmit` computes it; None is NaN. */
  function SubmitBalance(info: Option<BusinessInfo>, f: RaiseForm): Option<int>
  {
    var contractShares := ContractSharesAtSubmit(f.investments);
    if contractShares.None? then None
    else Some(BalanceBefore(info) - (InvestedShares(f.investments) + contractShares.value) + DilutedShares(f.dilutions))
  }

  // ---------------------------------------------------------------------
  // The balance as the preview shows it: an undefined count reads as 0.

  function SharesOrZero(c: ContractRow): int
  {
    c.shares.GetOr(0)
  }

  function CountedShares(x: Investment): int
  {
    Sum(Filter(x.contracts, Counted), SharesOrZero)
  }

  /** The balance left after the round, as the preview shows it. */
  function PreviewBalance(info: Option<BusinessInfo>, f: RaiseForm): int
  {
    BalanceBefore(info) - (InvestedShares(f.investments) + Sum(f.investments, CountedShares)) + DilutedShares(f.dilutions)
  }

  /** Every counted contract of investor row `x` states its share count. */
  predicate RowSharesDefined(x: Investment)
  {
    forall c :: c in x.contracts && Counted(c) ==> c.shares.Some?
  }

  /** Every counted contract of the form states its share count. */
  predicate CountedSharesDefined(f: RaiseForm)
  {
    forall x :: x in f.investments ==> RowSharesDefined(x)
  }

  lemma {:induction false} NumberSumDefined(cs: seq<ContractRow>)
    ensures (forall c :: c in cs ==> c.shares.Some?) ==> NumberSum(cs) == Some(Sum(cs, SharesOrZero))
    ensures (exists c :: c in cs && c.shares.None?) ==> NumberSum(cs).None?
  {
    if cs != [] {
      var n := |cs| - 1;
      assert cs == cs[..n] + [cs[n]];
      NumberSumDefined(cs[..n]);
    }
  }

  lemma {:induction false} ContractSharesDefined(invs: seq<Investment>)
    ensures (forall x :: x in invs ==> RowSharesDefined(x)) ==>
      ContractSharesAtSubmit(invs) == Some(Sum(invs, CountedShares))
    ensures (exists x :: x in invs && !RowSharesDefined(x)) ==> ContractSharesAtSubmit(invs).None?
  {
    if invs != [] {
      var n := |invs| - 1;
      assert invs == invs[..n] + [invs[n]];
      ContractSharesDefined(invs[..n]);
      NumberSumDefined(Filter(invs[n].contracts, Counted));
      if !RowSharesDefined(invs[n]) {
        var c :| c in invs[n].contracts && Counted(c) && c.shares.None?;
        assert c in Filter(invs[n].contracts, Counted);
      }
    }
  }

  /** The submit handler and the preview agree whenever every counted contract
      has a share count; otherwise the handler's balance is NaN. */
  lemma SubmitMatchesPreview(info: Option<BusinessInfo>, f: RaiseForm)
    ensures CountedSharesDefined(f) ==> SubmitBalance(info, f) == Some(PreviewBalance(info, f))
    ensures !CountedSharesDefined(f) ==> SubmitBalance(info, f).None?
  {
    ContractSharesDefined(f.investments);
  }

  /** `form.handleSubmit(onSubmit)`: the round is posted exactly when the schema
      accepts the form, every counted contract has a share count and the
      balance comes out at zero; otherwise it is refused with a toast. */
  function Submit(info: Option<BusinessInfo>, businessId: string, f: RaiseForm): (r: Outcome<RaiseForm>)
    ensures r.Posted? <==> ValidForm(f) && CountedSharesDefined(f) && PreviewBalance(info, f) == 0
    ensures r.Posted? ==> r.endpoint == EventEndpoint(businessId, "raise-a-round") && r.body == f
    ensures r.Refused? <==> ValidForm(f) && !(CountedSharesDefined(f) && PreviewBalance(info, f) == 0)
    ensures r.Refused? ==> r.toast == "Non-zero Share Balance!"
    ensures !r.Blocked?
  {
    SubmitMatchesPreview(info, f);
    if !ValidForm(f) then Invalid
    else if SubmitBalance(info, f) == Some(0) then Posted(EventEndpoint(businessId, "raise-a-round"), f)
    else Refused("Non-zero Share Balance!")
  }

  // ---------------------------------------------------------------------
  // How the balance responds to the rows.

  /** The balance does not depend on the order of the investment rows or of
      the dilution rows. */
  lemma BalanceIgnoresOrder(info: Option<BusinessInfo>, f: RaiseForm, g: RaiseForm)
    requires multiset(f.investments) == multiset(g.investments)
    requires multiset(f.dilutions) == multiset(g.dilutions)
    ensures PreviewBalance(info, f) == PreviewBalance(info, g)
    ensures SubmitBalance(info, f) == SubmitBalance(info, g)
  {
    SumPermutation(f.investments, g.investments, InvestmentShareCount);
    SumPermutation(f.investments, g.investments, CountedShares);
    DilutedSharesPermutation(f.dilutions, g.dilutions);
    SubmitMatchesPreview(info, f);
    SubmitMatchesPreview(info, g);
    assert forall x :: x in f.investments <==> x in g.investments by {
      forall x ensures x in f.investments <==> x in g.investments {
        assert x in f.investments <==> x in multiset(f.investments);
        assert x in g.investments <==> x in multiset(g.investments);
      }
    }
  }

  /** Adding a dilution row raises the balance by its shares. */
  lemma AddDilution(info: Option<BusinessInfo>, f: RaiseForm, d: Dilution)
    ensures PreviewBalance(info, f.(dilutions := f.dilutions + [d])) == PreviewBalance(info, f) + d.shares
    ensures SubmitBalance(info, f).Some? ==>
      SubmitBalance(info, f.(dilutions := f.dilutions + [d])) == Some(SubmitBalance(info, f).value + d.shares)
    ensures SubmitBalance(info, f).None? ==> SubmitBalance(info, f.(dilutions := f.dilutions + [d])).None?
  {
    var g := f.(dilutions := f.dilutions + [d]);
    DilutedSharesAppend(f.dilutions, d);
    assert g.investments == f.investments;
    assert DilutedShares(g.dilutions) == DilutedShares(f.dilutions) + d.shares;
  }

  /** Adding an investor row without contracts lowers the balance by its shares. */
  lemma AddInvestment(info: Option<BusinessInfo>, f: RaiseForm, x: Investment)
    requires x.contracts == []
    ensures PreviewBalance(info, f.(investments := f.investments + [x])) == PreviewBalance(info, f) - x.shares
    ensures SubmitBalance(info, f).Some? ==>
      SubmitBalance(info, f.(investments := f.investments + [x])) == Some(SubmitBalance(info, f).value - x.shares)
    ensures SubmitBalance(info, f).None? ==> SubmitBalance(info, f.(investments := f.investments + [x])).None?
  {
    var invs := f.investments + [x];
    assert invs[..|f.investments|] == f.investments;
    assert Filter(x.contracts, Counted) == [];
  }

  /** Replacing investor row `i` by one with the same counted figures leaves
      both balances unchanged. */
  lemma ReplaceRowKeepsBalance(info: Option<BusinessInfo>, f: RaiseForm, i: nat, y: Investment)
    requires i < |f.investments|
    requires y.shares == f.investments[i].shares
    requires CountedShares(y) == CountedShares(f.investments[i])
    requires RowSharesDefined(y) == RowSharesDefined(f.investments[i])
    ensures PreviewBalance(info, f.(investments := f.investments[i := y])) == PreviewBalance(info, f)
    ensures SubmitBalance(info, f.(investments := f.investments[i := y])) == SubmitBalance(info, f)
  {
    var g := f.(investments := f.investments[i := y]);
    SumUpdate(f.investments, i, y, CountedShares);
    SumUpdate(f.investments, i, y, InvestmentShareCount);
    RowsDefinedUpdate(f.investments, i, y);
    SubmitMatchesPreview(info, f);
    SubmitMatchesPreview(info, g);
  }

  lemma RowsDefinedUpdate(invs: seq<Investment>, i: nat, y: Investment)
    requires i < |invs| && RowSharesDefined(y) == RowSharesDefined(invs[i])
    ensures (forall z :: z in invs[i := y] ==> RowSharesDefined(z)) == (forall z :: z in invs ==> RowSharesDefined(z))
  {
    forall z | z in invs[i := y] ensures z == y || z in invs {
      var k :| 0 <= k < |invs| && invs[i := y][k] == z;
      if k != i { assert invs[k] == z; }
    }
    forall z | z in invs ensures z == invs[i] || z in invs[i := y] {
      var k :| 0 <= k < |invs| && invs[k] == z;
      if k != i { assert invs[i := y][k] == z; }
    }
    assert invs[i := y][i] == y && y in invs[i := y];
    assert invs[i] in invs;
  }

  /** A contract with an instrument type (SAFE, convertible note, ...) does
      not move the balance, at submit or in the preview. */
  lemma UncountedContractIgnored(info: Option<BusinessInfo>, f: RaiseForm, i: nat, c: ContractRow)
    requires i < |f.investments| && !Counted(c)
    ensures var x := f.investments[i];
      var g := f.(investments := f.investments[i := x.(contracts := x.contracts + [c])]);
      PreviewBalance(info, g) == PreviewBalance(info, f) && SubmitBalance(info, g) == SubmitBalance(info, f)
  {
    var x := f.investments[i];
    var y := x.(contracts := x.contracts + [c]);
    assert (x.contracts + [c])[..|x.contracts|] == x.contracts;
    assert Filter(y.contracts, Counted) == Filter(x.contracts, Counted);
    ReplaceRowKeepsBalance(info, f, i, y);
  }

  // ---------------------------------------------------------------------
  // Post-money valuation.

  /** What one contract adds to the money raised: a priced purchase is worth
      its shares times its price, an instrument its invested amount. */
  function ContractValue(c: ContractRow): real
  {
    if Counted(c) then (c.shares.GetOr(0) as real) * c.pricePerShare.GetOr(0.0)
    else c.investedAmount.GetOr(0.0)
  }

  function ContractsValue(x: Investment): real
  {
    SumReal(x.contracts, ContractValue)
  }

  /** `investments.reduce((acc, x) => acc + Number(x.amount), 0)`; None is NaN. */
  function AmountSum(invs: seq<Investment>): Option<real>
  {
    if invs == [] then Some(0.0)
    else
      var acc := AmountSum(invs[..|invs| - 1]);
      var a := invs[|invs| - 1].amount;
      if acc.Some? && a.Some? then Some(acc.value + a.value) else None
  }

  function AmountOrZero(x: Investment): real
  {
    x.amount.GetOr(0.0)
  }

  /** The money the round raises, as the metrics panel adds it up. */
  function MoneyRaised(f: RaiseForm): Option<real>
  {
    var amounts := AmountSum(f.investments);
    if amounts.None? then None else Some(amounts.value + SumReal(f.investments, ContractsValue))
  }

  /** Post-money valuation: pre-money plus the money raised. */
  function PostMoneyValuation(f: RaiseForm): Option<real>
  {
    var inv := MoneyRaised(f);
    if inv.None? then None else Some(f.round.preMoneyValuation + inv.value)
  }

  lemma {:induction false} AmountSumDefined(invs: seq<Investment>)
    ensures (forall x :: x in invs ==> x.amount.Some?) ==> AmountSum(invs) == Some(SumReal(invs, AmountOrZero))
    ensures (exists x :: x in invs && x.amount.None?) ==> AmountSum(invs).None?
  {
    if invs != [] {
      var n := |invs| - 1;
      assert invs == invs[..n] + [invs[n]];
      AmountSumDefined(invs[..n]);
    }
  }

  /** The post-money valuation is a number exactly when every investment row
      states an amount, and it is then pre-money plus amounts plus contracts. */
  lemma PostMoneyDefined(f: RaiseForm)
    ensures PostMoneyValuation(f).Some? <==> forall x :: x in f.investments ==> x.amount.Some?
    ensures PostMoneyValuation(f).Some? ==>
      PostMoneyValuation(f).value ==
        f.round.preMoneyValuation + SumReal(f.investments, AmountOrZero) + SumReal(f.investments, ContractsValue)
  {
    AmountSumDefined(f.investments);
  }

  /** On a form the schema accepts, a round never lowers the valuation. */
  lemma PostMoneyAtLeastPreMoney(f: RaiseForm)
    requires ValidForm(f) && PostMoneyValuation(f).Some?
    ensures PostMoneyValuation(f).value >= f.round.preMoneyValuation
  {
    PostMoneyDefined(f);
    SumRealNonNegative(f.investments, AmountOrZero);
    forall i | 0 <= i < |f.investments| ensures ContractsValue(f.investments[i]) >= 0.0 {
      var x := f.investments[i];
      forall k | 0 <= k < |x.contracts| ensures ContractValue(x.contracts[k]) >= 0.0 {
        assert ValidContract(x.contracts[k]);
      }
      SumRealNonNegative(x.contracts, ContractValue);
    }
    SumRealNonNegative(f.investments, ContractsValue);
  }

  /** The post-money valuation does not depend on the order of the rows. */
  lemma PostMoneyIgnoresOrder(f: RaiseForm, g: RaiseForm)
    requires f.round == g.round && multiset(f.investments) == multiset(g.investments)
    ensures PostMoneyValuation(f) == PostMoneyValuation(g)
  {
    PostMoneyDefined(f);
    PostMoneyDefined(g);
    SumRealPermutation(f.investments, g.investments, AmountOrZero);
    SumRealPermutation(f.investments, g.investments, ContractsValue);
    assert forall x :: x in f.investments <==> x in g.investments by {
      forall x ensures x in f.investments <==> x in g.investments {
        assert x in f.investments <==> x in multiset(f.investments);
        assert x in g.investments <==> x in multiset(g.investments);
      }
    }
  }

  /** Adding a contract to an investor row raises the post-money valuation by
      the contract's value. */
  lemma AddContractValue(f: RaiseForm, i: nat, c: ContractRow)
    requires i < |f.investments| && PostMoneyValuation(f).Some?
    ensures var x := f.investments[i];
      var g := f.(investments := f.investments[i := x.(contracts := x.contracts + [c])]);
      PostMoneyValuation(g) == Some(PostMoneyValuation(f).value + ContractValue(c))
  {
    var x := f.investments[i];
    var y := x.(contracts := x.contracts + [c]);
    var g := f.(investments := f.investments[i := y]);
    assert (x.contracts + [c])[..|x.contracts|] == x.contracts;
    assert ContractsValue(y) == ContractsValue(x) + ContractValue(c);
    SumRealUpdate(f.investments, i, y, ContractsValue);
    SumRealUpdate(f.investments, i, y, AmountOrZero);
    PostMoneyDefined(f);
    PostMoneyDefined(g);
    assert forall z :: z in g.investments ==> z == y || z in f.investments;
  }

  // ---------------------------------------------------------------------
  // Pickers.

  /** The investors row `index` may pick: anyone not chosen in another
      investor row. */
  function InvestorCandidates(shs: seq<StakeholderSummary>, f: RaiseForm, index: int): (r: seq<StakeholderSummary>)
    ensures forall sh :: sh in r <==>
      sh in shs && forall j :: 0 <= j < |f.investments| && j != index ==> f.investments[j].stakeholderId != sh.id
  {
    NotChosenElsewhere(shs, RowIds(f.investments, (x: Investment) => x.stakeholderId), index)
  }

  predicate HoldsShares(sh: StakeholderSummary)
  {
    sh.ownershipShares > 0
  }

  /** The holders dilution row `index` may pick: holders of shares not chosen
      in another dilution row. */
  function DilutionCandidates(shs: seq<StakeholderSummary>, f: RaiseForm, index: int): (r: seq<StakeholderSummary>)
    ensures forall sh :: sh in r <==>
      sh in shs && sh.ownershipShares > 0 &&
      forall j :: 0 <= j < |f.dilutions| && j != index ==> f.dilutions[j].stakeholderId != sh.id
  {
    Filter(NotChosenElsewhere(shs, RowIds(f.dilutions, (d: Dilution) => d.stakeholderId), index), HoldsShares)
  }

  /** `stakeholders.find(x => x.id === id)`. */
  function FindById(shs: seq<StakeholderSummary>, id: string): Option<StakeholderSummary>
  {
    if shs == [] then None
    else if shs[0].id == id then Some(shs[0])
    else FindById(shs[1..], id)
  }

  /** `find` returns the first stakeholder with the id, and nothing exactly
      when no stakeholder has it. */
  lemma {:induction false} FindByIdIsFirst(shs: seq<StakeholderSummary>, id: string)
    ensures FindById(shs, id).None? <==> forall k :: 0 <= k < |shs| ==> shs[k].id != id
    ensures forall k :: 0 <= k < |shs| && shs[k].id == id && (forall k' :: 0 <= k' < k ==> shs[k'].id != id) ==>
      FindById(shs, id) == Some(shs[k])
  {
    if shs != [] && shs[0].id != id {
      FindByIdIsFirst(shs[1..], id);
      assert forall k :: 0 < k < |shs| ==> shs[1..][k - 1] == shs[k];
      forall k | 0 <= k < |shs| && shs[k].id == id && (forall k' :: 0 <= k' < k ==> shs[k'].id != id)
        ensures FindById(shs, id) == Some(shs[k])
      {
        assert k > 0;
        assert forall k' :: 0 <= k' < k - 1 ==> shs[1..][k'].id != id by {
          forall k' | 0 <= k' < k - 1 ensures shs[1..][k'].id != id {
            assert shs[1..][k'] == shs[k' + 1];
          }
        }
      }
    }
  }

  /** Choosing holder `id` in dilution row `index` pre-fills the row's shares
      with that holder's ownership (0 when the id is unknown). */
  function PickDilutionHolder(shs: seq<StakeholderSummary>, f: RaiseForm, index: nat, id: string): (g: RaiseForm)
    requires index < |f.dilutions|
    ensures g.round == f.round && g.investments == f.investments && |g.dilutions| == |f.dilutions|
    ensures g.dilutions[index].stakeholderId == id
    ensures (forall k :: 0 <= k < |shs| ==> shs[k].id != id) ==> g.dilutions[index].shares == 0
    ensures forall k :: 0 <= k < |shs| && shs[k].id == id && (forall k' :: 0 <= k' < k ==> shs[k'].id != id) ==>
      g.dilutions[index].shares == shs[k].ownershipShares
    ensures forall j :: 0 <= j < |f.dilutions| && j != index ==> g.dilutions[j] == f.dilutions[j]
  {
    FindByIdIsFirst(shs, id);
    var found := FindById(shs, id);
    var shares := if found.Some? then found.value.ownershipShares else 0;
    f.(dilutions := f.dilutions[index := Dilution(id, shares)])
  }
}

=== FILE: round_history.dfy ===
/**
 * The dashboard's round history: the funding rounds sorted by date on a
 * copy of the list, then turned into bars of the chart.
 */
module RoundHistory {

  /** A funding round; `time` is the round's date as milliseconds since the
      epoch, which is what the comparator compares. */
  datatype Round = Round(id: string, name: string, time: int, amount: int, valuation: int)

  predicate SortedByTime(s: seq<Round>)
  {
    forall p, q :: 0 <= p < q < |s| ==> s[p].time <= s[q].time
  }

  /** Sorts the array in place by date, moving each round left past the
      later-dated rounds before it. */
  method SortByTime(a: array<Round>)
    modifies a
    ensures SortedByTime(a[..])
    ensures multiset(a[..]) == multiset(old(a[..]))
  {
    var i := 0;
    while i < a.Length
      invariant 0 <= i <= a.Length
      invariant SortedByTime(a[..i])
      invariant multiset(a[..]) == multiset(old(a[..]))
    {
      InsertLast(a, i);
      i := i + 1;
    }
    assert a[..a.Length] == a[..];
  }

  /** Moves `a[i]` left into the sorted prefix `a[..i]`, past every round
      dated strictly later, so that `a[..i + 1]` is sorted. */
  method InsertLast(a: array<Round>, i: nat)
    requires i < a.Length && SortedByTime(a[..i])
    modifies a
    ensures SortedByTime(a[..i + 1])
    ensures multiset(a[..]) == multiset(old(a[..]))
  {
    var j := i;
    assert SortedExcept(a[..], i, j);
    while j > 0 && a[j - 1].time > a[j].time
      invariant 0 <= j <= i
      invariant multiset(a[..]) == multiset(old(a[..]))
      invariant SortedExcept(a[..], i, j) && Bridged(a[..], i, j)
    {
      ghost var before := a[..];
      a[j - 1], a[j] := a[j], a[j - 1];
      assert a[..] == before[j - 1 := before[j]][j := before[j - 1]];
      SwapKeepsMultiset(before, j);
      SwapKeepsOrder(before, i, j);
      j := j - 1;
    }
    InsertedSorted(a[..], i, j);
  }

  /** The rounds up to `i` are in date order, except possibly around `j`. */
  predicate SortedExcept(s: seq<Round>, i: nat, j: nat)
    requires i < |s|
  {
    forall p, q :: 0 <= p < q <= i && q != j ==> s[p].time <= s[q].time
  }

  /** The neighbours of the gap at `j` are in date order. */
  predicate Bridged(s: seq<Round>, i: nat, j: nat)
    requires i < |s|
  {
    0 < j < i ==> s[j - 1].time <= s[j + 1].time
  }

  /** Swapping the round at `j` with a later-dated one before it moves the
      gap in the order one place to the left. */
  lemma SwapKeepsOrder(s: seq<Round>, i: nat, j: nat)
    requires 0 < j <= i < |s| && s[j - 1].time > s[j].time
    requires SortedExcept(s, i, j) && Bridged(s, i, j)
    ensures var t := s[j - 1 := s[j]][j := s[j - 1]];
      SortedExcept(t, i, j - 1) && Bridged(t, i, j - 1)
  {
  }

  /** Once the round at the gap is no earlier than its left neighbour, the
      rounds up to `i` are in date order. */
  lemma InsertedSorted(s: seq<Round>, i: nat, j: nat)
    requires j <= i < |s| && SortedExcept(s, i, j) && Bridged(s, i, j)
    requires j == 0 || s[j - 1].time <= s[j].time
    ensures SortedByTime(s[..i + 1])
  {
  }

  lemma SwapKeepsMultiset(s: seq<Round>, j: nat)
    requires 0 < j < |s|
    ensures multiset(s[j - 1 := s[j]][j := s[j - 1]]) == multiset(s)
  {
    var t := s[j - 1 := s[j]][j := s[j - 1]];
    assert s == s[..j - 1] + [s[j - 1], s[j]] + s[j + 1..];
    assert t == s[..j - 1] + [s[j], s[j - 1]] + s[j + 1..];
  }

  /** `[...rounds].sort(byDate)`: a sorted copy; the list it was given is a
      value and stays as it was. */
  method SortedRounds(rounds: seq<Round>) returns (sorted: seq<Round>)
    ensures SortedByTime(sorted)
    ensures multiset(sorted) == multiset(rounds)
  {
    var a := new Round[|rounds|](i requires 0 <= i < |rounds| => rounds[i]);
    assert a[..] == rounds;
    SortByTime(a);
    sorted := a[..];
  }

  predicate StrictlySortedByTime(s: seq<Round>)
  {
    forall p, q :: 0 <= p < q < |s| ==> s[p].time < s[q].time
  }

  /** When no two rounds share a date there is only one sorted order: every
      sorted permutation is that order. */
  lemma {:induction false} SortedOrderIsUnique(s: seq<Round>, t: seq<Round>)
    requires SortedByTime(s) && StrictlySortedByTime(t)
    requires multiset(s) == multiset(t)
    ensures s == t
    decreases |s|
  {
    assert |s| == |multiset(s)| == |multiset(t)| == |t|;
    if |s| > 0 {
      FirstsAgree(s, t);
      TailsPermuted(s, t);
      SortedOrderIsUnique(s[1..], t[1..]);
      assert s == [s[0]] + s[1..] && t == [t[0]] + t[1..];
    }
  }

  /** The earliest round comes first in both orders. */
  lemma FirstsAgree(s: seq<Round>, t: seq<Round>)
    requires SortedByTime(s) && StrictlySortedByTime(t)
    requires multiset(s) == multiset(t) && |s| > 0
    ensures |t| > 0 && s[0] == t[0]
  {
    assert s[0] in multiset(t);
    var k :| 0 <= k < |t| && t[k] == s[0];
    assert t[0] in multiset(s);
    var m :| 0 <= m < |s| && s[m] == t[0];
    assert s[0].time <= s[m].time;
    assert k == 0;
  }

  lemma TailsPermuted(s: seq<Round>, t: seq<Round>)
    requires |s| > 0 && |t| > 0 && s[0] == t[0] && multiset(s) == multiset(t)
    ensures multiset(s[1..]) == multiset(t[1..])
  {
    assert s == [s[0]] + s[1..];
    assert t == [t[0]] + t[1..];
    assert multiset(s[1..]) == multiset(s) - multiset{s[0]};
    assert multiset(t[1..]) == multiset(t) - multiset{t[0]};
  }

  /** The dashboard's three rounds, dated 2021-03-22, 2021-06-10 and
      2022-02-15 (UTC midnight). */
  function FixtureRounds(): seq<Round>
  {
    [ Round("r1", "Pre-Seed", 1616371200000, 2000000, 8000000),
      Round("r2", "Seed", 1623283200000, 5000000, 15000000),
      Round("r3", "Series A", 1644883200000, 8000000, 25000000) ]
  }

  /** Sorting the dashboard's rounds keeps them in the order r1, r2, r3. */
  lemma FixtureOrder(sorted: seq<Round>)
    requires SortedByTime(sorted) && multiset(sorted) == multiset(FixtureRounds())
    ensures sorted == FixtureRounds()
    ensures |sorted| == 3 && sorted[0].id == "r1" && sorted[1].id == "r2" && sorted[2].id == "r3"
  {
    SortedOrderIsUnique(sorted, FixtureRounds());
  }

  /** A bar of the chart (its date label is formatted for display and is not
      part of this model). */
  datatype Bar = Bar(name: string, amount: int, valuation: int)

  /** `chartData`: one bar per sorted round, in the same order. */
  function ChartData(sorted: seq<Round>): (r: seq<Bar>)
    ensures |r| == |sorted|
    ensures forall i :: 0 <= i < |sorted| ==>
      r[i].name == sorted[i].name && r[i].amount == sorted[i].amount && r[i].valuation == sorted[i].valuation
  {
    seq(|sorted|, i requires 0 <= i < |sorted| => Bar(sorted[i].name, sorted[i].amount, sorted[i].valuation))
  }

  /** The bars of the dashboard's data, earliest round first. */
  lemma FixtureBars(sorted: seq<Round>)
    requires SortedByTime(sorted) && multiset(sorted) == multiset(FixtureRounds())
    ensures ChartData(sorted) ==
      [Bar("Pre-Seed", 2000000, 8000000), Bar("Seed", 5000000, 15000000), Bar("Series A", 8000000, 25000000)]
  {
    FixtureOrder(sorted);
  }
}

=== FILE: shareholder_chart.dfy ===
/**
 * The data behind the dashboard's shareholder pie charts: shares grouped by
 * holder type (`shareholdersByType`), and one slice per shareholder.  Only
 * the per-shareholder pie is rendered: the "Equity by Type" card draws a
 * fixed placeholder series, and its pie over the grouping is commented out.
 */
module ShareholderChart {
  import opened Folds

  datatype ShareholderType = Founder | Investor | Employee | Other

  /** A row of the dashboard's cap table (joining date and invested amount
      are not used by the charts). */
  datatype Shareholder = Shareholder(id: string, name: string, kind: ShareholderType, shares: int, percentage: int)

  /** One entry of the grouped record: a type and the shares held under it. */
  datatype Group = Group(kind: ShareholderType, shares: int)

  function HolderShares(s: Shareholder): int
  {
    s.shares
  }

  function GroupShares(g: Group): int
  {
    g.shares
  }

  /** One step of the reduce: start the type's entry at 0 if it is missing,
      then add the holder's shares to it.  Entries keep the order in which
      their type first appeared. */
  function Add(gs: seq<Group>, s: Shareholder): seq<Group>
  {
    if gs == [] then [Group(s.kind, s.shares)]
    else if gs[0].kind == s.kind then [gs[0].(shares := gs[0].shares + s.shares)] + gs[1..]
    else [gs[0]] + Add(gs[1..], s)
  }

  /** The grouped record after reducing over `shs`, first to last. */
  function GroupFold(shs: seq<Shareholder>): seq<Group>
  {
    if shs == [] then [] else Add(GroupFold(shs[..|shs| - 1]), shs[|shs| - 1])
  }

  /** `shareholdersByType`'s reduce over the holders. */
  method ShareholdersByType(shs: seq<Shareholder>) returns (groups: seq<Group>)
    ensures groups == GroupFold(shs)
  {
    groups := [];
    for i := 0 to |shs|
      invariant groups == GroupFold(shs[..i])
    {
      assert shs[..i + 1][..i] == shs[..i];
      groups := Add(groups, shs[i]);
    }
    assert shs[..|shs|] == shs;
  }

  /** Shares held by holders of type `t`. */
  function TypeTotal(shs: seq<Shareholder>, t: ShareholderType): int
  {
    if shs == [] then 0
    else TypeTotal(shs[..|shs| - 1], t) + (if shs[|shs| - 1].kind == t then shs[|shs| - 1].shares else 0)
  }

  /** Shares the groups record under type `t`. */
  function GroupTotal(gs: seq<Group>, t: ShareholderType): int
  {
    if gs == [] then 0 else (if gs[0].kind == t then gs[0].shares else 0) + GroupTotal(gs[1..], t)
  }

  predicate HasType(gs: seq<Group>, t: ShareholderType)
  {
    exists i :: 0 <= i < |gs| && gs[i].kind == t
  }

  predicate DistinctTypes(gs: seq<Group>)
  {
    forall i, j :: 0 <= i < j < |gs| ==> gs[i].kind != gs[j].kind
  }

  /** One step creates the holder's type entry if needed and no other. */
  lemma {:induction false} AddHasType(gs: seq<Group>, s: Shareholder, t: ShareholderType)
    ensures HasType(Add(gs, s), t) <==> HasType(gs, t) || s.kind == t
    decreases |gs|
  {
    var r := Add(gs, s);
    if gs == [] {
      HasTypeCons(r[0], [], t);
      assert r == [r[0]] + [];
      assert !HasType(gs, t);
    } else {
      assert gs == [gs[0]] + gs[1..];
      HasTypeCons(gs[0], gs[1..], t);
      if gs[0].kind == s.kind {
        var g := gs[0].(shares := gs[0].shares + s.shares);
        assert r == [g] + gs[1..];
        HasTypeCons(g, gs[1..], t);
      } else {
        AddHasType(gs[1..], s, t);
        assert r == [gs[0]] + Add(gs[1..], s);
        HasTypeCons(gs[0], Add(gs[1..], s), t);
      }
    }
  }

  lemma HasTypeCons(g: Group, rest: seq<Group>, t: ShareholderType)
    ensures HasType([g] + rest, t) <==> g.kind == t || HasType(rest, t)
  {
    var gs := [g] + rest;
    if HasType(gs, t) {
      var i :| 0 <= i < |gs| && gs[i].kind == t;
      if i > 0 { assert rest[i - 1].kind == t; }
    }
    if HasType(rest, t) {
      var i :| 0 <= i < |rest| && rest[i].kind == t;
      assert gs[i + 1].kind == t;
    }
    if g.kind == t { assert gs[0].kind == t; }
  }

  /** One step adds the holder's shares to its own type's total only. */
  lemma {:induction false} AddGroupTotal(gs: seq<Group>, s: Shareholder, t: ShareholderType)
    ensures GroupTotal(Add(gs, s), t) == GroupTotal(gs, t) + (if s.kind == t then s.shares else 0)
    decreases |gs|
  {
    if gs != [] && gs[0].kind != s.kind {
      AddGroupTotal(gs[1..], s, t);
      assert Add(gs, s)[1..] == Add(gs[1..], s);
    } else if gs != [] {
      assert Add(gs, s)[1..] == gs[1..];
    }
  }

  /** One step adds the holder's shares to the grand total. */
  lemma {:induction false} AddSum(gs: seq<Group>, s: Shareholder)
    ensures Sum(Add(gs, s), GroupShares) == Sum(gs, GroupShares) + s.shares
    decreases |gs|
  {
    var r := Add(gs, s);
    if gs == [] {
      assert r[..0] == [];
    } else {
      SumAppend([gs[0]], gs[1..], GroupShares);
      assert [gs[0]] + gs[1..] == gs;
      assert [gs[0]][..0] == [];
      SumAppend([r[0]], r[1..], GroupShares);
      assert [r[0]] + r[1..] == r;
      assert [r[0]][..0] == [];
      if gs[0].kind != s.kind {
        AddSum(gs[1..], s);
        assert r[1..] == Add(gs[1..], s);
      } else {
        assert r[1..] == gs[1..];
      }
    }
  }

  /** One step keeps the types distinct. */
  lemma {:induction false} AddDistinct(gs: seq<Group>, s: Shareholder)
    requires DistinctTypes(gs)
    ensures DistinctTypes(Add(gs, s))
    decreases |gs|
  {
    if gs == [] {
    } else if gs[0].kind == s.kind {
      var r := Add(gs, s);
      assert forall j :: 0 <= j < |r| ==> r[j].kind == gs[j].kind;
    } else {
      var rest := Add(gs[1..], s);
      AddDistinct(gs[1..], s);
      AddHasType(gs[1..], s, gs[0].kind);
      assert !HasType(gs[1..], gs[0].kind) by {
        forall k | 0 <= k < |gs[1..]| ensures gs[1..][k].kind != gs[0].kind {
          assert gs[1..][k] == gs[k + 1];
        }
      }
      var r := Add(gs, s);
      assert r == [gs[0]] + rest;
      forall j | 0 < j < |r| ensures r[j].kind != gs[0].kind {
        assert r[j] == rest[j - 1];
      }
    }
  }

  /** The grouping has one entry per type present and none for absent types,
      records under each type the shares of its holders, and loses no share. */
  lemma {:induction false} GroupFoldSpec(shs: seq<Shareholder>)
    ensures DistinctTypes(GroupFold(shs))
    ensures forall t :: HasType(GroupFold(shs), t) <==> exists k :: 0 <= k < |shs| && shs[k].kind == t
    ensures forall t :: GroupTotal(GroupFold(shs), t) == TypeTotal(shs, t)
    ensures Sum(GroupFold(shs), GroupShares) == Sum(shs, HolderShares)
    decreases |shs|
  {
    if shs != [] {
      var init, last := shs[..|shs| - 1], shs[|shs| - 1];
      GroupFoldSpec(init);
      AddDistinct(GroupFold(init), last);
      forall t ensures (HasType(GroupFold(shs), t) <==> exists k :: 0 <= k < |shs| && shs[k].kind == t)
        && GroupTotal(GroupFold(shs), t) == TypeTotal(shs, t)
      {
        AddHasType(GroupFold(init), last, t);
        AddGroupTotal(GroupFold(init), last, t);
        if exists k :: 0 <= k < |shs| && shs[k].kind == t {
          var k :| 0 <= k < |shs| && shs[k].kind == t;
          if k < |shs| - 1 { assert init[k].kind == t; }
        }
        if exists k :: 0 <= k < |init| && init[k].kind == t {
          var k :| 0 <= k < |init| && init[k].kind == t;
          assert shs[k].kind == t;
        }
      }
      AddSum(GroupFold(init), last);
    }
  }

  /** With distinct types, an entry's shares are the total recorded under
      its type. */
  lemma {:induction false} EntryIsTotal(gs: seq<Group>, i: nat)
    requires DistinctTypes(gs) && i < |gs|
    ensures GroupTotal(gs, gs[i].kind) == gs[i].shares
    decreases |gs|
  {
    if i == 0 {
      NoOtherEntry(gs[1..], gs[0].kind);
    } else {
      EntryIsTotal(gs[1..], i - 1);
      assert gs[1..][i - 1] == gs[i];
    }
  }

  lemma {:induction false} NoOtherEntry(gs: seq<Group>, t: ShareholderType)
    requires forall j :: 0 <= j < |gs| ==> gs[j].kind != t
    ensures GroupTotal(gs, t) == 0
    decreases |gs|
  {
    if gs != [] {
      NoOtherEntry(gs[1..], t);
    }
  }

  /** Each entry of the grouping holds the total shares of its type. */
  lemma GroupSharesAreTypeTotals(shs: seq<Shareholder>)
    ensures forall i :: 0 <= i < |GroupFold(shs)| ==> GroupFold(shs)[i].shares == TypeTotal(shs, GroupFold(shs)[i].kind)
  {
    GroupFoldSpec(shs);
    forall i | 0 <= i < |GroupFold(shs)| ensures GroupFold(shs)[i].shares == TypeTotal(shs, GroupFold(shs)[i].kind) {
      EntryIsTotal(GroupFold(shs), i);
    }
  }

  /** The dashboard's five shareholders. */
  function FixtureShareholders(): seq<Shareholder>
  {
    [ Shareholder("sh1", "John Smith", Founder, 300000, 30),
      Shareholder("sh2", "Jane Doe", Founder, 300000, 30),
      Shareholder("sh3", "Venture Partners", Investor, 200000, 20),
      Shareholder("sh4", "Angel Group", Investor, 100000, 10),
      Shareholder("sh5", "Employee Pool", Employee, 100000, 10) ]
  }

  /** On the dashboard's data the grouping `shareholdersByType` computes is
      Founder 600000, Investor 300000 and Employee 100000, one million shares
      in all (no card renders it). */
  lemma FixtureGroups()
    ensures GroupFold(FixtureShareholders()) == [Group(Founder, 600000), Group(Investor, 300000), Group(Employee, 100000)]
    ensures Sum(GroupFold(FixtureShareholders()), GroupShares) == 1000000
  {
    var shs := FixtureShareholders();
    var g1 := [Group(Founder, 300000)];
    var g2 := [Group(Founder, 600000)];
    var g3 := [Group(Founder, 600000), Group(Investor, 200000)];
    var g4 := [Group(Founder, 600000), Group(Investor, 300000)];
    var g5 := [Group(Founder, 600000), Group(Investor, 300000), Group(Employee, 100000)];
    assert shs[..1][..0] == [];
    assert GroupFold(shs[..1]) == g1;
    assert shs[..2][..1] == shs[..1];
    assert GroupFold(shs[..2]) == g2;
    assert shs[..3][..2] == shs[..2];
    assert Add(g2, shs[2]) == g3 by { assert g2[1..] == []; }
    assert GroupFold(shs[..3]) == g3;
    assert shs[..4][..3] == shs[..3];
    assert Add(g3, shs[3]) == g4 by { assert g3[1..] == [Group(Investor, 200000)]; }
    assert GroupFold(shs[..4]) == g4;
    assert shs[..4] == shs[..|shs| - 1];
    assert Add(g4, shs[4]) == g5 by { assert g4[1..] == [Group(Investor, 300000)]; assert g4[1..][1..] == []; }
    assert g5[..2] == g4 && g4[..1] == g2 && g2[..0] == [];
  }

  /** A slice of the per-shareholder pie. */
  datatype Slice = Slice(name: string, value: int, percentage: int, kind: ShareholderType)

  /** `shareholderData`: one slice per holder, in the same order. */
  function ShareholderData(shs: seq<Shareholder>): (r: seq<Slice>)
    ensures |r| == |shs|
    ensures forall i :: 0 <= i < |shs| ==>
      r[i].name == shs[i].name && r[i].value == shs[i].shares && r[i].kind == shs[i].kind
  {
    seq(|shs|, i requires 0 <= i < |shs| => Slice(shs[i].name, shs[i].shares, shs[i].percentage, shs[i].kind))
  }

  function SliceValue(s: Slice): int
  {
    s.value
  }

  /** The slices of the per-shareholder pie and the computed per-type
      grouping (whose pie is not rendered) cover the same shares. */
  lemma {:induction false} SlicesCoverGroups(shs: seq<Shareholder>)
    ensures Sum(ShareholderData(shs), SliceValue) == Sum(GroupFold(shs), GroupShares)
    decreases |shs|
  {
    GroupFoldSpec(shs);
    SliceSum(shs);
  }

  lemma {:induction false} SliceSum(shs: seq<Shareholder>)
    ensures Sum(ShareholderData(shs), SliceValue) == Sum(shs, HolderShares)
    decreases |shs|
  {
    if shs != [] {
      var init := shs[..|shs| - 1];
      SliceSum(init);
      assert ShareholderData(shs)[..|shs| - 1] == ShareholderData(init);
    }
  }
}

=== FILE: strings.dfy ===
/**
 * The string operations the helpers rely on, with JavaScript's meaning:
 * `split` on one separator character, `join`, ASCII `toUpperCase` /
 * `toLowerCase`, `includes`, and `Number` applied to a string of decimal digits.
 */
module Strings {
  import opened Wrappers

  /** `s.split(c)`: the pieces between occurrences of `c`; there is always at
      least one piece. */
  function Split(s: string, c: char): (parts: seq<string>)
    ensures |parts| >= 1
  {
    if s == [] then [""]
    else
      var rest := Split(s[1..], c);
      if s[0] == c then [""] + rest else [[s[0]] + rest[0]] + rest[1..]
  }

  /** `parts.join(c)`. */
  function Join(parts: seq<string>, c: char): string
  {
    if |parts| == 0 then ""
    else if |parts| == 1 then parts[0]
    else parts[0] + [c] + Join(parts[1..], c)
  }

  /** A string without the separator is one piece. */
  lemma {:induction false} SplitNoSeparator(s: string, c: char)
    requires c !in s
    ensures Split(s, c) == [s]
  {
    if s != [] {
      assert c !in s[1..] by { assert forall k :: 0 <= k < |s[1..]| ==> s[1..][k] == s[k + 1]; }
      SplitNoSeparator(s[1..], c);
      assert s == [s[0]] + s[1..];
    }
  }

  /** Splitting at a separator preceded by a separator-free prefix. */
  lemma {:induction false} SplitAtFirst(a: string, b: string, c: char)
    requires c !in a
    ensures Split(a + [c] + b, c) == [a] + Split(b, c)
  {
    if a == [] {
      assert a + [c] + b == [c] + b;
      assert ([c] + b)[1..] == b;
    } else {
      var s := a + [c] + b;
      assert s[1..] == a[1..] + [c] + b;
      assert c !in a[1..] by { assert forall k :: 0 <= k < |a[1..]| ==> a[1..][k] == a[k + 1]; }
      SplitAtFirst(a[1..], b, c);
      assert [a[0]] + a[1..] == a;
    }
  }

  /** Splitting pieces joined by a separator none of them contains gives the
      pieces back. */
  lemma {:induction false} SplitJoin(parts: seq<string>, c: char)
    requires |parts| >= 1 && forall k :: 0 <= k < |parts| ==> c !in parts[k]
    ensures Split(Join(parts, c), c) == parts
    decreases |parts|
  {
    if |parts| == 1 {
      SplitNoSeparator(parts[0], c);
    } else {
      SplitJoin(parts[1..], c);
      SplitAtFirst(parts[0], Join(parts[1..], c), c);
      assert [parts[0]] + parts[1..] == parts;
    }
  }

  /** ASCII `toUpperCase` of one character; other characters are unchanged. */
  function UpperChar(ch: char): char
  {
    if 'a' <= ch <= 'z' then (ch as int - 'a' as int + 'A' as int) as char else ch
  }

  /** ASCII `toLowerCase` of one character; other characters are unchanged. */
  function LowerChar(ch: char): char
  {
    if 'A' <= ch <= 'Z' then (ch as int - 'A' as int + 'a' as int) as char else ch
  }

  function Upper(s: string): (r: string)
    ensures |r| == |s| && forall k :: 0 <= k < |s| ==> r[k] == UpperChar(s[k])
  {
    if s == [] then [] else [UpperChar(s[0])] + Upper(s[1..])
  }

  function Lower(s: string): (r: string)
    ensures |r| == |s| && forall k :: 0 <= k < |s| ==> r[k] == LowerChar(s[k])
  {
    if s == [] then [] else [LowerChar(s[0])] + Lower(s[1..])
  }

  /** Lower-casing forgets how the input was cased. */
  lemma LowerOfUpper(s: string)
    ensures Lower(Upper(s)) == Lower(s)
  {
    forall k | 0 <= k < |s| ensures Lower(Upper(s))[k] == Lower(s)[k] {
      assert LowerChar(UpperChar(s[k])) == LowerChar(s[k]);
    }
  }

  /** `s.includes(t)`. */
  predicate Contains(s: string, t: string)
    decreases |s|
  {
    |t| <= |s| && (s[..|t|] == t || Contains(s[1..], t))
  }

  /** A string lacking the first character of `t` does not contain `t`. */
  lemma {:induction false} MissingFirstChar(s: string, t: string)
    requires |t| > 0 && t[0] !in s
    ensures !Contains(s, t)
    decreases |s|
  {
    if |t| <= |s| {
      assert s[..|t|][0] == s[0];
      MissingFirstChar(s[1..], t);
    }
  }

  /** A string contains whatever occurs inside it. */
  lemma {:induction false} ContainsWithin(a: string, t: string, b: string)
    ensures Contains(a + t + b, t)
    decreases |a|
  {
    if a == [] {
      assert (a + t + b)[..|t|] == t;
    } else {
      ContainsWithin(a[1..], t, b);
      assert (a + t + b)[1..] == a[1..] + t + b;
    }
  }

  /** Decimal digit character to its value. */
  function DigitValue(ch: char): nat
    requires '0' <= ch <= '9'
  {
    ch as int - '0' as int
  }

  predicate AllDigits(s: string)
  {
    forall k :: 0 <= k < |s| ==> '0' <= s[k] <= '9'
  }

  /** Value of a string of decimal digits, most significant first; '' is 0. */
  function DecimalValue(s: string): nat
    requires AllDigits(s)
  {
    if s == [] then 0 else DecimalValue(s[..|s| - 1]) * 10 + DigitValue(s[|s| - 1])
  }

  /** `Number(s)` for the strings the model meets: a string of decimal digits
      (the empty string included, which JavaScript reads as 0) has its decimal
      value; any other string is NaN here. */
  function NumberOf(s: string): Option<nat>
  {
    if AllDigits(s) then Some(DecimalValue(s)) else None
  }

  /** Decimal rendering of a natural number, as `String(n)` gives it. */
  function NatToString(n: nat): (r: string)
    ensures |r| >= 1 && AllDigits(r)
  {
    var d := ['0' + (n % 10) as char];
    if n < 10 then d else NatToString(n / 10) + d
  }

  /** Reading back a rendered number gives the number. */
  lemma {:induction false} DecimalValueOfNatToString(n: nat)
    ensures DecimalValue(NatToString(n)) == n
  {
    var s := NatToString(n);
    if n >= 10 {
      DecimalValueOfNatToString(n / 10);
      assert s[..|s| - 1] == NatToString(n / 10);
    }
  }
}

=== FILE: utils.dfy ===
/**
 * Display helpers: turning an enum name such as `SERIES_A` into words
 * ("Series A"), and turning a day/month/year date into year-month-day.
 */
module Utils {
  import opened Strings
  import opened Ledger

  /** `word.charAt(0).toUpperCase() + word.slice(1).toLowerCase()`. */
  function Capitalize(w: string): (r: string)
    ensures |r| == |w|
    ensures forall i :: 0 <= i < |w| ==> r[i] == (if i == 0 then UpperChar(w[0]) else LowerChar(w[i]))
  {
    if w == [] then [] else [UpperChar(w[0])] + Lower(w[1..])
  }

  function CapitalizeAll(words: seq<string>): (r: seq<string>)
    ensures |r| == |words| && forall k :: 0 <= k < |words| ==> r[k] == Capitalize(words[k])
  {
    seq(|words|, k requires 0 <= k < |words| => Capitalize(words[k]))
  }

  /** `formatEnum`: split at '_', capitalise each word, join with spaces. */
  function FormatEnum(s: string): string
  {
    Join(CapitalizeAll(Split(s, '_')), ' ')
  }

  /** What `formatEnum` makes of character i: an underscore becomes a space,
      the first character of a word is upper-cased and the rest lower-cased. */
  function EnumChar(s: string, i: nat): char
    requires i < |s|
  {
    if s[i] == '_' then ' '
    else if i == 0 || s[i - 1] == '_' then UpperChar(s[i])
    else LowerChar(s[i])
  }

  /** Position of the first `c` in `s`. */
  function IndexOf(s: string, c: char): (p: nat)
    requires c in s
    ensures p < |s| && s[p] == c && forall q :: 0 <= q < p ==> s[q] != c
  {
    if s[0] == c then 0 else 1 + IndexOf(s[1..], c)
  }

  lemma FormatEnumOneWord(s: string)
    requires '_' !in s
    ensures FormatEnum(s) == Capitalize(s)
  {
    SplitNoSeparator(s, '_');
  }

  lemma FormatEnumAtFirst(w: string, t: string)
    requires '_' !in w
    ensures FormatEnum(w + "_" + t) == Capitalize(w) + " " + FormatEnum(t)
  {
    assert w + "_" + t == w + ['_'] + t;
    SplitAtFirst(w, t, '_');
    var rest := CapitalizeAll(Split(t, '_'));
    assert CapitalizeAll([w] + Split(t, '_')) == [Capitalize(w)] + rest;
    assert ([Capitalize(w)] + rest)[1..] == rest;
  }

  /** `formatEnum` works character by character: it keeps the length, turns
      each underscore into a space, upper-cases the first letter of each word
      and lower-cases the others. */
  lemma {:induction false} FormatEnumPointwise(s: string)
    ensures |FormatEnum(s)| == |s|
    ensures forall i :: 0 <= i < |s| ==> FormatEnum(s)[i] == EnumChar(s, i)
    decreases |s|
  {
    if '_' !in s {
      FormatEnumOneWord(s);
    } else {
      var p := IndexOf(s, '_');
      var w, t := s[..p], s[p + 1..];
      assert s == w + "_" + t;
      FormatEnumPointwise(t);
      FormatEnumFirstWord(w, t);
    }
  }

  /** The inductive step of `FormatEnumPointwise`: a word, an underscore,
      then a rest already known to be formatted character by character. */
  lemma FormatEnumFirstWord(w: string, t: string)
    requires '_' !in w
    requires |FormatEnum(t)| == |t| && forall j :: 0 <= j < |t| ==> FormatEnum(t)[j] == EnumChar(t, j)
    ensures |FormatEnum(w + "_" + t)| == |w| + 1 + |t|
    ensures forall i :: 0 <= i < |w| + 1 + |t| ==> FormatEnum(w + "_" + t)[i] == EnumChar(w + "_" + t, i)
  {
    FormatEnumAtFirst(w, t);
    JoinedPointwise(w, t, FormatEnum(t), FormatEnum(w + "_" + t));
  }

  lemma JoinedPointwise(w: string, t: string, ft: string, out: string)
    requires '_' !in w
    requires |ft| == |t| && forall j :: 0 <= j < |t| ==> ft[j] == EnumChar(t, j)
    requires out == Capitalize(w) + " " + ft
    ensures |out| == |w| + 1 + |t|
    ensures forall i :: 0 <= i < |w| + 1 + |t| ==> out[i] == EnumChar(w + "_" + t, i)
  {
    forall i | 0 <= i < |w| + 1 + |t| ensures out[i] == EnumChar(w + "_" + t, i) {
      if i < |w| {
        EnumCharInFirstWord(w, t, i);
      } else if i > |w| {
        EnumCharAfterFirstWord(w, t, i - |w| - 1);
        assert out[i] == ft[i - |w| - 1];
      }
    }
  }

  /** Inside the first word a character is formatted as in that word alone. */
  lemma EnumCharInFirstWord(w: string, t: string, i: nat)
    requires '_' !in w && i < |w|
    ensures EnumChar(w + "_" + t, i) == Capitalize(w)[i]
  {
    var s := w + "_" + t;
    assert s[i] == w[i];
    if i > 0 { assert s[i - 1] == w[i - 1]; }
  }

  /** After the first underscore a character is formatted as in the rest alone. */
  lemma EnumCharAfterFirstWord(w: string, t: string, j: nat)
    requires j < |t|
    ensures EnumChar(w + "_" + t, |w| + 1 + j) == EnumChar(t, j)
  {
    var s := w + "_" + t;
    assert s[|w| + 1 + j] == t[j];
    assert s[|w| + j] == if j == 0 then '_' else t[j - 1];
  }

  lemma CaseOfCase(ch: char)
    ensures UpperChar(UpperChar(ch)) == UpperChar(ch) && UpperChar(LowerChar(ch)) == UpperChar(ch)
    ensures LowerChar(UpperChar(ch)) == LowerChar(ch) && LowerChar(LowerChar(ch)) == LowerChar(ch)
    ensures (UpperChar(ch) == '_' <==> ch == '_') && (LowerChar(ch) == '_' <==> ch == '_')
  {
  }

  /** `formatEnum` does not depend on how the input was cased. */
  lemma FormatEnumIgnoresCase(s: string)
    ensures FormatEnum(Upper(s)) == FormatEnum(s)
    ensures FormatEnum(Lower(s)) == FormatEnum(s)
  {
    FormatEnumPointwise(s);
    FormatEnumPointwise(Upper(s));
    FormatEnumPointwise(Lower(s));
    forall i | 0 <= i < |s|
      ensures EnumChar(Upper(s), i) == EnumChar(s, i) && EnumChar(Lower(s), i) == EnumChar(s, i)
    {
      CaseOfCase(s[i]);
      if i > 0 { CaseOfCase(s[i - 1]); }
    }
  }

  /** How the round-type picker labels a Series A round. */
  lemma FormatEnumExample(s: string)
    requires s == RoundTypeName(RoundType.SERIES_A)
    ensures FormatEnum(s) == "Series A"
  {
    var w, v := "SERIES", "A";
    assert s == w + "_" + v;
    assert "Series A" == "Series" + " " + "A";
    FormatEnumTwoWords(w, v);
    CapitalizeSeries();
    assert Capitalize(v) == "A";
  }

  /** How the contract-type label shows a convertible note. */
  lemma FormatEnumContractExample(s: string)
    requires s == "CONVERTIBLE_NOTE"
    ensures FormatEnum(s) == "Convertible Note"
  {
    var w, v := "CONVERTIBLE", "NOTE";
    assert s == w + "_" + v;
    assert "Convertible Note" == "Convertible" + " " + "Note";
    FormatEnumTwoWords(w, v);
    CapitalizeConvertible();
    CapitalizeNote();
  }

  /** Two words joined by an underscore are capitalised separately. */
  lemma FormatEnumTwoWords(w: string, v: string)
    requires '_' !in w && '_' !in v
    ensures FormatEnum(w + "_" + v) == Capitalize(w) + " " + Capitalize(v)
  {
    FormatEnumAtFirst(w, v);
    FormatEnumOneWord(v);
  }

  lemma CapitalizeSeries()
    ensures Capitalize("SERIES") == "Series"
  {
    var w, r := "SERIES", "Series";
    assert w == "S" + "ERIES" && r == "S" + "eries";
    CapitalizeWord(w, r);
  }

  lemma CapitalizeConvertible()
    ensures Capitalize("CONVERTIBLE") == "Convertible"
  {
    var w, r := "CONVERTIBLE", "Convertible";
    assert w == "CON" + "VERTIBLE" && r == "Con" + "vertible";
    CapitalizeWord(w, r);
  }

  lemma CapitalizeNote()
    ensures Capitalize("NOTE") == "Note"
  {
    var w, r := "NOTE", "Note";
    assert w == "N" + "OTE" && r == "N" + "ote";
    CapitalizeWord(w, r);
  }

  lemma CapitalizeWord(w: string, r: string)
    requires |w| == |r| && forall i :: 0 <= i < |w| ==> r[i] == (if i == 0 then UpperChar(w[0]) else LowerChar(w[i]))
    ensures Capitalize(w) == r
  {
  }

  function Reverse(xs: seq<string>): (r: seq<string>)
    ensures |r| == |xs| && forall k :: 0 <= k < |xs| ==> r[k] == xs[|xs| - 1 - k]
  {
    seq(|xs|, k requires 0 <= k < |xs| => xs[|xs| - 1 - k])
  }

  /** What `formatDate` does with the formatted date: `split('/')`,
      `reverse()`, `join('-')`. */
  function FormatDateParts(formatted: string): string
  {
    Join(Reverse(Split(formatted, '/')), '-')
  }

  /** A day/month/year date comes out as year-month-day. */
  lemma FormatDateReorders(d: string, m: string, y: string)
    requires '/' !in d && '/' !in m && '/' !in y
    ensures FormatDateParts(d + "/" + m + "/" + y) == y + "-" + m + "-" + d
  {
    var parts := [d, m, y];
    assert Join(parts, '/') == d + "/" + m + "/" + y by {
      assert parts[1..] == [m, y];
      assert [m, y][1..] == [y];
      assert Join([m, y], '/') == m + "/" + y;
    }
    SplitJoin(parts, '/');
    assert Reverse(parts) == [y, m, d];
    assert Join([y, m, d], '-') == y + "-" + m + "-" + d by {
      assert [y, m, d][1..] == [m, d];
      assert [m, d][1..] == [d];
      assert Join([m, d], '-') == m + "-" + d;
    }
  }
}

=== FILE: wrappers.dfy ===
/** Optional values: a JavaScript `undefined` field, a missing lookup, a NaN result. */
module Wrappers {

  datatype Option<+T> = None | Some(value: T) {

    /** `x ?? d`: the value when present, the default otherwise. */
    function GetOr(default: T): T {
      match this
      case Some(v) => v
      case None => default
    }
  }
}
